=== FILE: README.md ===
# database-anggota-api: members and role-change requests, in Dafny

A model of the member-administration API of a student organisation. The API keeps members (`members`), their cohorts (`angkatan`) and departments (`jurusan`), plus notifications and the status-change requests that board members (role `bph`) send each other.

The model covers these parts of the Go service:

- **the role-change workflow** (`service/notification_service.go`):
  - A board member asks another board member to change role. This writes a notification and a request that point at each other.
  - The target accepts the request, which updates their role, or rejects it.
  - Every user can list their notifications, mark one as read, and count their unread ones.
- **the two repositories** (`repository/member_repository.go`, `repository/notification_repository.go`). They are modelled as functions over immutable tables:
  - each table is a map from primary key to row;
  - the joins the SQL makes (the cohort and department names, and the sender of a notification) succeed only when the joined row exists.
- **the member service** (`service/member_service.go`):
  - the admin form checks, member creation and member update;
  - login by NRA and password, and the one-time login token;
  - the profile, setting a password, and completing a profile.
- **the helpers:**
  - the field fallback rule (`helper/string.go`);
  - the NRA and e-mail patterns (`util/valid.go`);
  - the `CustomDate` JSON and SQL codecs (`util/custome_date.go`);
  - the response projections (`helper/converter.go`).

Everything outside the database is a parameter of the operations:

- time: `now`;
- generated identifiers: the uuids `id`, `nid` and `rid`;
- the random login token;
- the password hash `hashed`;
- the bcrypt comparison `verify`;
- the uploaded file's name.

The HTTP layer, JWT signing and the file system are not modelled. A service takes the member that the JWT claims resolve to as a `Result` (the operations whose names end in `As`). A ghost wrapper without that suffix makes the lookup on the starting tables, as the handler does.

Failures are `Failure(status, message)` with the status the handler returns (400, 403 or 500). A failed operation yields no new state, except `AddMember`, whose transaction commits on every path (`defer tx.Commit()`). It therefore returns the tables together with the result.

The model follows the code in these details:

- A missing row is reported as 500, because the code wraps `sql.ErrNoRows` into a 500.
- `AddMember` keeps an automatically created cohort even when the member insert then fails.
- An NRA is `dd.dd.ddd`, which is nine characters.

## Model

| member | source | states |
|---|---|---|
| Choose.ChooseIdempotent | helper/string.go:5-17 | choosing again with the same form value changes nothing, for both the plain and the nullable fallback |
| Choose.ChooseNullStringAgrees | helper/string.go:5-17 | the nullable fallback carries the same text as the plain fallback applied to the stored text |
| Validators.NraCheckMatchesPattern | util/valid.go:10-13 | the NRA check accepts exactly the strings made of two digits, a dot, two digits, a dot and three digits |
| Validators.NraRejectsEmptyAndLetters | util/valid.go:10-13 | the empty string and any string containing an ASCII letter are rejected |
| Validators.EmailCheckMatchesPattern | util/valid.go:5-8 | the e-mail check accepts exactly a non-empty local part of allowed characters, one `@`, a domain of allowed characters, a dot and a top-level part of at least two letters |
| Validators.ValidEmailHasOneAt | util/valid.go:5-8 | an accepted address contains exactly one `@` |
| CustomDates.MarshalJSON | util/custome_date.go:17-19 | the JSON form is a quoted string |
| CustomDates.UnmarshalJSON | util/custome_date.go:22-29 | decoding succeeds iff the input is a quoted `YYYY-MM-DD` date and then yields that date at midnight; on failure the receiver is unchanged |
| CustomDates.Scan | util/custome_date.go:37-58 | a time value is taken as is, an unsupported source type is an error, and a failed scan leaves the receiver unchanged |
| CustomDates.FormatParseIso | util/custome_date.go:14 | every text the `2006-01-02` layout accepts is printed back identically |
| CustomDates.ParseFormatIso | util/custome_date.go:14 | every valid date with a four-digit year parses back from its printed form |
| CustomDates.JsonRoundTrip | util/custome_date.go:17-29 | unmarshalling what was marshalled succeeds and gives back the same calendar date |
| CustomDates.DayMonthYearAgreesWithIso | service/member_service.go:64-71 | the form layout `02-01-2006` reads the same date as the ISO layout on the rearranged text |
| CustomDates.ScanBytesAgreesWithString | util/custome_date.go:42-55 | scanning bytes and scanning the same text as a string give the same result |
| CustomDates.ScanReadsValue | util/custome_date.go:32-41 | scanning what `Value` wrote gives back the date that was written |
| FileNames.ExtOfAppended | service/member_service.go:96 | the extension of a name that ends in an extension is that extension |
| FileNames.PhotoNameKeepsExt | service/member_service.go:96 | the photo named `<nra>_<nama><ext>` keeps the upload's extension |
| FileNames.ReplaceSpacesIdempotent | service/member_service.go:707 | replacing spaces with underscores twice is the same as doing it once |
| FileNames.ReplaceSpacesFixes | service/member_service.go:707 | a name without spaces is left as it is |
| Converter.ToMemberResponse | helper/converter.go:8-22 | the member response carries the joined cohort and department names, NULL strings become "", and role and login token stay "" |
| Converter.ProfileHidesSecrets | helper/converter.go:24-37 | the profile response does not depend on the password or the login token |
| Converter.CreateResponseFields | helper/converter.go:39-51 | the create response does not depend on e-mail, phone or password, and carries the login token |
| Converter.MemberResponseFields | helper/converter.go:8-22 | the member response does not depend on the stored role or token, and exposes the stored password hash |
| Converter.ProfileAgreesWithMemberResponse | helper/converter.go:8-37 | the profile and the member response agree on every field they share |
| Converter.ToMemberResponses | helper/converter.go:53-61 | the list has one response per member, in order |
| Converter.ToMemberResponsesAppend | helper/converter.go:53-61 | converting a concatenation is the concatenation of the conversions |
| MemberRepository.GetMemberById | repository/member_repository.go:144-170 | succeeds iff the member exists and its cohort and department rows exist; an absent id is `sql.ErrNoRows` |
| MemberRepository.GetMemberByNRA | repository/member_repository.go:86-112 | a result is a stored member with that NRA; no-rows iff no member has it |
| MemberRepository.GetMemberByToken | repository/member_repository.go:115-141 | a result is a stored member holding that login token; no-rows iff no member holds it |
| MemberRepository.GetJurusanByName | repository/member_repository.go:185-194 | a result is a department with that name; no-rows iff none has it |
| MemberRepository.GetAngkatanById | repository/member_repository.go:209-218 | succeeds iff the cohort exists, with its stored name |
| MemberRepository.AddMember | repository/member_repository.go:38-47 | inserts iff the id is new; exactly that key is added and every other row is kept |
| MemberRepository.UpdateMember | repository/member_repository.go:50-59 | rewrites the updated columns of that row only; an absent id changes nothing |
| MemberRepository.DeleteMember | repository/member_repository.go:173-182 | removes exactly that key and keeps the rest |
| MemberRepository.UpdateMemberToken | repository/member_repository.go:221-228 | sets that member's login token (empty text stored as NULL) and nothing else |
| MemberRepository.UpdateMemberPassword | repository/member_repository.go:230-237 | sets that member's password and nothing else |
| MemberRepository.UpdateMemberProfile | repository/member_repository.go:239-246 | sets that member's e-mail, phone, name, photo and date and nothing else |
| MemberRepository.AddAngkatan | repository/member_repository.go:248-255 | inserts iff the cohort id is new; other cohorts and the member tables are kept |
| MemberRepository.AddAngkatanThenGet | repository/member_repository.go:209-255 | a cohort absent before its insert is read back as inserted |
| MemberRepository.UpdateThenGet | repository/member_repository.go:50-59 | reading after an update gives the updated columns |
| MemberRepository.DeleteThenGet | repository/member_repository.go:144-182 | after a delete the id reads as no-rows and every other id reads as before |
| MemberRepository.ClearedTokenNotFound | repository/member_repository.go:115-141 | once the only holder's token is cleared, no member is found by that token |
| NotificationRepository.CreateNotification | repository/notification_repository.go:31-62 | inserts iff the id is new, stamped with `now`, unread, and leaves every other row and the requests as they were |
| NotificationRepository.GetNotificationById | repository/notification_repository.go:111-140 | succeeds iff the notification exists, with its stored row |
| NotificationRepository.MarkNotificationAsRead | repository/notification_repository.go:142-164 | succeeds iff the notification exists, targets the caller and is not already stamped with this `NOW()` (MySQL counts changed rows); it sets only `read_at`/`updated_at`; otherwise "not found or not owned" |
| NotificationRepository.MarkTwice | repository/notification_repository.go:142-164 | a second mark in the same second fails as "not found or not owned", and a mark at another instant succeeds again |
| NotificationRepository.NewestFirst | repository/notification_repository.go:64-109 | every targeted notification once, ordered by `created_at` descending |
| NotificationRepository.JoinAll | repository/notification_repository.go:64-109 | the listing fails iff some row's sender cannot be joined; otherwise it lists one joined row per id in order |
| NotificationRepository.GetNotificationsByMemberId | repository/notification_repository.go:64-109 | fails iff a sender cannot be joined; otherwise lists exactly the caller's notifications, newest first |
| NotificationRepository.ListingFacts | repository/notification_repository.go:64-109 | the joined newest-first list is the caller's listing |
| NotificationRepository.CreateStatusChangeRequest | repository/notification_repository.go:182-204 | inserts iff the id is new, stamped with `now`, leaving the notifications and other requests as they were |
| NotificationRepository.GetStatusChangeRequestById | repository/notification_repository.go:206-232 | succeeds iff the request exists, with its stored row |
| NotificationRepository.UpdateStatusChangeRequest | repository/notification_repository.go:234-247 | sets that request's status and processing time only; an absent id changes nothing |
| NotificationRepository.GetStatusChangeRequestByNotificationId | repository/notification_repository.go:249-275 | succeeds iff some request points at the notification, and returns a stored request that does |
| NotificationRepository.CreateThenGetRequest | repository/notification_repository.go:182-232 | a request absent before its insert is read back as inserted |
| NotificationRepository.CreateNotificationCountsUnread | repository/notification_repository.go:31-62 | a new notification raises its target's unread count by one and leaves everyone else's count |
| NotificationRepository.MarkAsReadCount | repository/notification_repository.go:142-180 | marking an unread notification as read lowers the caller's count by one; marking a read one leaves it |
| NotificationRepository.CountJoined | repository/notification_repository.go:64-109 | joining the senders does not change how many listed rows are unread |
| NotificationRepository.CountNewestFirst | repository/notification_repository.go:64-109 | ordering does not change how many are unread |
| NotificationRepository.UnreadCountMatchesListing | repository/notification_repository.go:64-180 | the unread count equals the number of unread rows in the caller's listing |
| NotificationService.DecodeMetadata | service/notification_service.go:116-122 | the response carries metadata iff the stored text is the request metadata JSON |
| NotificationService.ToNotificationResponse | service/notification_service.go:90-122 | the response copies id, type, title, message, pending flag, time and sender, and carries `read_at` and `accepted` only when set; it carries `metadata` iff the stored text decodes as the request metadata, and then exactly the decoded value |
| NotificationService.ToNotificationResponses | service/notification_service.go:90-127 | one response per listed row, in the listing's order |
| NotificationService.GetNotificationsAs | service/notification_service.go:45-128 | 500 if the caller is unknown or a sender cannot be joined; otherwise the caller's notifications, newest first |
| NotificationService.MarkNotificationAsReadAs | service/notification_service.go:130-175 | 500 if the caller is unknown or the repository affects no row; otherwise succeeds iff the notification is the caller's and not already stamped with this `NOW()`, and changes only that row |
| NotificationService.GetUnreadNotificationCountAs | service/notification_service.go:177-222 | 500 if the caller is unknown; otherwise the number of the caller's unread notifications |
| NotificationService.InsertRequestPair | service/notification_service.go:286-328 | succeeds iff both ids are new; then exactly the linked notification/request pair is added with the message naming the requester and both roles |
| NotificationService.CheckRequest | service/notification_service.go:252-284 | 400 on a missing field; 500 on an unknown requester; 403 unless the requester is `bph`; 500 on an unknown target; 400 unless target and `from_role` are `bph`; success iff all pass |
| NotificationService.CreateStatusChangeRequestAs | service/notification_service.go:224-339 | a failed check is returned as is; success iff the checks pass and both ids are new, and then only the linked pair is added, members untouched, with the request and notification ids in the response |
| NotificationService.SendStatusChangeNotification | service/notification_service.go:505-563 | succeeds iff both ids are new, and then adds the same pair as a request would |
| NotificationService.UpdateNotificationStatus | service/notification_service.go:566-579 | sets pending, accepted, `read_at` and `updated_at` of that notification only |
| NotificationService.CheckResolvable | service/notification_service.go:369-389 | 500 on an unknown caller or request; 403 unless the caller is the target; 400 unless the request is pending |
| NotificationService.WithRole | service/notification_service.go:392-405 | the member record written back differs from the stored one only in its role |
| NotificationService.AcceptStatusChangeRequestAs | service/notification_service.go:341-432 | succeeds iff the request is resolvable by the caller; writes the new role, marks the request accepted and closes its notification as accepted |
| NotificationService.RejectStatusChangeRequestAs | service/notification_service.go:434-503 | succeeds iff the request is resolvable by the caller; leaves the members alone, marks the request rejected and closes its notification |
| WorkflowProperties.NotificationPerRequest | service/notification_service.go:286-328 | while requests and notifications agree, no two requests share a notification |
| WorkflowProperties.CreateKeepsConsistent | service/notification_service.go:224-339 | creating a request keeps every request paired with a notification that describes it |
| WorkflowProperties.SendKeepsConsistent | service/notification_service.go:505-563 | the same for the stand-alone send |
| WorkflowProperties.AcceptKeepsConsistent | service/notification_service.go:341-432 | accepting keeps requests and notifications agreeing |
| WorkflowProperties.RejectKeepsConsistent | service/notification_service.go:434-503 | rejecting keeps them agreeing |
| WorkflowProperties.MarkAsReadKeepsConsistent | service/notification_service.go:130-175 | reading a notification keeps them agreeing |
| WorkflowProperties.CreatedRequestIsResolvable | service/notification_service.go:224-432 | a freshly created request can be accepted or rejected exactly by its target, and acceptance grants the requested role |
| WorkflowProperties.AcceptedOnce | service/notification_service.go:386-389 | an accepted request can be neither accepted nor rejected again |
| WorkflowProperties.RejectedOnce | service/notification_service.go:479-482 | a rejected request can be neither accepted nor rejected again |
| WorkflowProperties.AcceptGrantsRole | service/notification_service.go:341-432 | after acceptance the target's stored row is the old one with the new role; every other member is unchanged; the target reads back with the new role |
| WorkflowProperties.RejectKeepsMembers | service/notification_service.go:434-503 | rejection changes no member |
| WorkflowProperties.CreateRaisesUnread | service/notification_service.go:224-339 | a new request raises the target's unread count by one |
| WorkflowProperties.AcceptClearsUnread | service/notification_service.go:341-432 | accepting lowers the target's unread count by one if the request's notification was still unread, and leaves it otherwise |
| WorkflowProperties.RejectClearsUnread | service/notification_service.go:434-503 | rejecting lowers the target's unread count by one if the request's notification was still unread, and leaves it otherwise |
| WorkflowProperties.UnreadResponsesOfListing | service/notification_service.go:90-127 | the responses without `read_at` are as many as the unread rows listed |
| WorkflowProperties.BadgeMatchesList | service/notification_service.go:45-222 | the unread badge equals the number of listed notifications without `read_at` |
| WorkflowProperties.CreateThenAccept | service/notification_service.go:224-432 | after a request and its acceptance the target holds the new role and has as many unread notifications as before |
| MemberService.ParseFormDate | service/member_service.go:63-71 | an empty date is absent; a non-empty one must read as `DD-MM-YYYY` and becomes that day at midnight |
| MemberService.FirstMissing | service/member_service.go:74-83 | no message iff every field is non-empty; otherwise the message of an empty field |
| MemberService.CheckMemberForm | service/member_service.go:63-86 | 400 on a bad date, a missing field or a malformed NRA; success iff none of these |
| MemberService.EnsureAngkatan | service/member_service.go:137-156 | an existing cohort is used as stored; a new one is added as "Angkatan <id>"; members and departments are untouched |
| MemberService.CreateMember | service/member_service.go:49-173 | the form errors come first, then "the file cannot be empty", then 500 for an unknown department or a taken id; on success the stored member has role "", no e-mail, phone or password, the photo `<nra>_<nama><ext>` and the login token |
| MemberService.AddMemberAs | service/member_service.go:49-179 | creation as above, and the response names the member's cohort and department and carries the token |
| MemberService.AddMemberAsWritten | service/member_service.go:158-179 | the response as the code builds it: the cohort and department names are empty |
| MemberService.UpdatedPhotoName | service/member_service.go:218-290 | an update keeps the extension of the upload or of the stored photo, and has no photo iff neither exists |
| MemberService.MergeMember | service/member_service.go:331-363 | each non-empty form field replaces the stored one; an empty one keeps it; e-mail, phone, password, role and token are kept |
| MemberService.PrepareUpdate | service/member_service.go:182-328 | 500 on a bad date or an unknown member, 400 on a malformed NRA, 500 on an unknown department, in that order; otherwise the merged row and the cohort tables |
| MemberService.UpdateMemberAs | service/member_service.go:182-389 | the update writes the merged row, keeps the stored role, and responds with the member as read back |
| MemberService.UpdateMemberAsWritten | service/member_service.go:182-388 | the update as written: the same errors as the corrected update, in the same order; on success the row is written with role "", and the response's cohort and department are empty |
| MemberService.GetMemberById | service/member_service.go:412-429 | succeeds iff the repository lookup does, with that member's response; otherwise 500 |
| MemberService.DeleteMember | service/member_service.go:432-454 | succeeds iff the member can be read, and then removes exactly that member |
| MemberService.LoginAs | service/member_service.go:457-485 | 400 on an empty NRA or password or a wrong password, 500 on an unknown NRA; success yields claims with the typed NRA, the name and the membership status |
| MemberService.LoginTokenAs | service/member_service.go:488-528 | 400 on an empty token, 500 on an unknown one; success clears that member's token and yields their claims |
| MemberService.GetProfileAs | service/member_service.go:531-570 | the caller's profile, or 500 if the caller is unknown |
| MemberService.SetPasswordAs | service/member_service.go:573-636 | 400 on an empty password, 500 on an unknown caller; success stores the hash for that member only |
| MemberService.CheckProfileForm | service/member_service.go:674-707 | success iff the date reads and e-mail, phone, date, name and photo are present; the photo is named after the NRA and the name with underscores for spaces |
| MemberService.CompleteProfileAs | service/member_service.go:639-763 | the form errors come first, then 500 for an unknown caller; success writes the profile fields and responds with the member as read back |
| MemberProperties.LookupUniqueNra | repository/member_repository.go:86-112 | when NRAs are unique, the NRA lookup returns the one member holding it |
| MemberProperties.LookupUniqueToken | repository/member_repository.go:115-141 | when tokens are unique, the token lookup returns the one holder |
| MemberProperties.EnsureAngkatanIdempotent | service/member_service.go:137-156 | ensuring a cohort twice is the same as once |
| MemberProperties.FailedAddKeepsCohort | service/member_service.go:121-173 | a member insert that fails on a taken id still leaves the new cohort in place |
| MemberProperties.AddMemberThenGet | service/member_service.go:49-179 | a created member reads back by its id as the record creation built, and the create response is the projection of that read |
| MemberProperties.AddMemberThenLoginToken | service/member_service.go:131-173 | the token handed out at creation logs the new member in once, with the form's NRA, name and status, and then no more |
| MemberProperties.LoginTokenSingleUse | service/member_service.go:488-528 | after a token login the same token no longer logs anyone in |
| MemberProperties.SetPasswordThenLogin | service/member_service.go:457-636 | with a unique NRA, logging in with the new password succeeds whenever the stored hash verifies it |
| MemberProperties.CompleteProfileThenGetProfile | service/member_service.go:531-763 | after completing the profile, the profile reads back the new e-mail, phone, name and photo |
| MemberProperties.UpdateMemberThenGet | service/member_service.go:182-429 | the corrected update's response equals a fresh read of the member, and the role is kept |
| MemberProperties.DeleteThenGet | service/member_service.go:412-454 | after a delete the member can no longer be read |
| MemberProperties.BlankEditDemotesBoardMember | service/member_service.go:331-388 | an update with an empty form demotes a `bph` member to role "" and empties the response's cohort; the corrected update keeps both |
| MemberProperties.UpdateAsWrittenClearsRole | service/member_service.go:331-365 | every successful update as written stores role "" |
| MemberProperties.CreateResponseDropsNames | service/member_service.go:175-178 | a concrete creation whose response, as written, has empty cohort and department names |
| MemberProperties.MemberFormCheckOrder | service/member_service.go:73-86 | the member form reports the first empty field in the order nra, name, cohort, status, department, then the NRA format |
| MemberProperties.ProfileFormCheckOrder | service/member_service.go:674-699 | the profile form checks e-mail and phone, then the date, then the name, then the photo |

## Left out

- HTTP parsing, multipart decoding, the bearer-token check and JWT signing are not modelled. The 401 paths they produce are left out; each service receives the already-resolved caller.
- Writing, renaming and deleting uploaded files is left out; only the file names are modelled.
- Failures of the file system, the transaction begin and commit, and random-token generation are not modelled.
- `uuid.New`, `time.Now`/`NOW()`, the random token, bcrypt hashing and bcrypt comparison are parameters.
- Storage errors are not modelled, except an insert on an existing primary key. An UPDATE or DELETE of an absent key is a no-op, as `ExecContext` without a `RowsAffected` check is.
- `GetAllMember`, `GetJurusanById` and the member's `jenis_kelamin` column are outside the modelled core.
- MySQL string comparison (case-insensitive, trailing spaces ignored) is modelled as exact equality.
- Foreign-key and unique constraints beyond the primary keys are not modelled. `MemberProperties.LookupUniqueNra` and `MemberProperties.LookupUniqueToken` assume uniqueness explicitly.
- Concurrency is not modelled. Each operation runs alone, and the only difference between its transaction and no transaction is the commit-on-failure of `AddMember`.
- `helper/conterver.go` redeclares `ConvertMemberToResponseDTO` in the same package. It is not part of this model; `helper/converter.go` is the one modelled.
- NotificationService.DecodeMetadata: metadata text is either the request metadata the service writes or opaque text. Arbitrary JSON values are not decoded.
- MemberService.EnsureAngkatan: the "failed to get angkatan" and "failed to create new angkatan" 500s are unreachable once storage errors are left out, so the model has no such branch.
- NotificationService.CheckResolvable: a missing request is a 500, as the code wraps `sql.ErrNoRows`; the model has no separate "not found" status.
- `model/member.go` declares no `Role` field, yet the repositories read and write `member.Role` and both services use it. The model gives every member row a role, as the repositories and services do.
- `model/notification.go` names the request columns `FromStatus`/`ToStatus` and the joined sender column `FromMemberStatus`. The model calls them `fromRole`, `toRole` and `fromMemberRole`, as the service code and its messages do; the stored values are the same.
- Validators.IsValidEmail is checked against its pattern only; e-mail validity is not used by any modelled operation, because `CompleteProfile` does not call it.

## Findings

| source | as written | input that shows it | evidently intended | confidence | as-written member | corrected member |
|---|---|---|---|---|---|---|
| service/member_service.go:331-365 | the record passed to `UpdateMember` has no `Role`, so the UPDATE writes role "" | any update of a `bph` member, even an empty form | a member edit keeps the stored role | high (not executed) | MemberService.UpdateMemberAsWritten, shown by MemberProperties.BlankEditDemotesBoardMember and MemberProperties.UpdateAsWrittenClearsRole | MemberService.UpdateMemberAs, proved by MemberProperties.UpdateMemberThenGet |
| service/member_service.go:175-178 | the cohort and department names are injected into `AngkatanID`/`JurusanID`, but `ConvertMemberToCreateResponseDTO` reads `Angkatan.NamaAngkatan`/`Jurusan.NamaJurusan`, so both response fields are "" | nra "13.22.016", nama "Budi", angkatan "015" with an existing department | the create response names the cohort and department | high (not executed) | MemberService.AddMemberAsWritten, shown by MemberProperties.CreateResponseDropsNames | MemberService.AddMemberAs, proved by MemberProperties.AddMemberThenGet |
| service/member_service.go:370-388 | the same injection after an update leaves the response's cohort and department "", because `helper/converter.go` reads the joined names; this holds with `helper/converter.go`, whereas the clashing `ConvertMemberToResponseDTO` in `helper/conterver.go` reads `AngkatanID`/`JurusanID` and would return the injected names, or the stored ids on an empty edit | an empty edit form on a member of cohort "Angkatan 015" | the update response names the cohort and department | high (not executed) | MemberService.UpdateMemberAsWritten, shown by MemberProperties.BlankEditDemotesBoardMember | MemberService.UpdateMemberAs, proved by MemberProperties.UpdateMemberThenGet |

=== FILE: ascii.dfy ===
/** Character classes and decimal digit strings, as Go's `regexp` (RE2) and
    `time` packages read them: only the ASCII digits and letters count. */
module Ascii {

  predicate IsDigit(c: char) { '0' <= c <= '9' }

  predicate IsLetter(c: char) { 'a' <= c <= 'z' || 'A' <= c <= 'Z' }

  predicate AllDigits(s: string) { forall i :: 0 <= i < |s| ==> IsDigit(s[i]) }

  function DigitValue(c: char): (d: nat)
    requires IsDigit(c)
    ensures d < 10
  {
    (c as int) - ('0' as int)
  }

  function DigitChar(d: nat): (c: char)
    requires d < 10
    ensures IsDigit(c) && DigitValue(c) == d
  {
    (('0' as int) + d) as char
  }

  /** The number a string of decimal digits denotes (leading zeros allowed). */
  function DigitsValue(s: string): nat
    requires AllDigits(s)
  {
    if |s| == 0 then 0 else DigitsValue(s[..|s| - 1]) * 10 + DigitValue(s[|s| - 1])
  }

  function Pow10(k: nat): (p: nat)
    ensures p >= 1
  {
    if k == 0 then 1 else 10 * Pow10(k - 1)
  }

  /** The shortest decimal spelling of `n` ("0" for zero). */
  function Decimal(n: nat): string
  {
    if n < 10 then [DigitChar(n)] else Decimal(n / 10) + [DigitChar(n % 10)]
  }

  function Zeros(k: nat): (z: string)
    ensures |z| == k && AllDigits(z)
  {
    seq(k, _ => '0')
  }

  /** Go's `appendInt(b, n, width)` for a non-negative `n`: the decimal
      spelling, left-padded with zeros to at least `width` characters. */
  function PadLeft(n: nat, width: nat): string
  {
    var ds := Decimal(n);
    if |ds| < width then Zeros(width - |ds|) + ds else ds
  }

  lemma {:induction false} DigitsValueBound(s: string)
    requires AllDigits(s)
    ensures DigitsValue(s) < Pow10(|s|)
  {
    if |s| > 0 {
      DigitsValueBound(s[..|s| - 1]);
    }
  }

  lemma {:induction false} DecimalFacts(n: nat)
    ensures AllDigits(Decimal(n))
    ensures DigitsValue(Decimal(n)) == n
    ensures 1 <= |Decimal(n)|
  {
    if n >= 10 {
      DecimalFacts(n / 10);
      var ds := Decimal(n);
      assert ds[..|ds| - 1] == Decimal(n / 10);
    }
  }

  lemma {:induction false} DecimalLength(n: nat, k: nat)
    requires 1 <= k && n < Pow10(k)
    ensures |Decimal(n)| <= k
  {
    if n >= 10 {
      DecimalLength(n / 10, k - 1);
    }
  }

  lemma {:induction false} ZerosPrefixValue(k: nat, ds: string)
    requires AllDigits(ds)
    ensures AllDigits(Zeros(k) + ds)
    ensures DigitsValue(Zeros(k) + ds) == DigitsValue(ds)
  {
    var s := Zeros(k) + ds;
    if |ds| == 0 {
      assert s == Zeros(k);
      if k > 0 {
        assert s[..|s| - 1] == Zeros(k - 1) + ds;
        assert s[|s| - 1] == '0';
        ZerosPrefixValue(k - 1, ds);
      }
    } else {
      var init := ds[..|ds| - 1];
      assert s[..|s| - 1] == Zeros(k) + init;
      ZerosPrefixValue(k, init);
    }
  }

  /** Padding to a width the number fits in yields exactly `width` digits
      that denote the number. */
  lemma PadLeftFacts(n: nat, width: nat)
    requires 1 <= width && n < Pow10(width)
    ensures |PadLeft(n, width)| == width
    ensures AllDigits(PadLeft(n, width))
    ensures DigitsValue(PadLeft(n, width)) == n
  {
    DecimalFacts(n);
    DecimalLength(n, width);
    var ds := Decimal(n);
    if |ds| < width {
      ZerosPrefixValue(width - |ds|, ds);
    }
  }

  /** Two digit strings of the same length that denote the same number are
      the same string. */
  lemma {:induction false} DigitsInjective(a: string, b: string)
    requires AllDigits(a) && AllDigits(b) && |a| == |b|
    requires DigitsValue(a) == DigitsValue(b)
    ensures a == b
  {
    if |a| > 0 {
      var a', b' := a[..|a| - 1], b[..|b| - 1];
      assert DigitValue(a[|a| - 1]) == DigitValue(b[|b| - 1]);
      DigitsInjective(a', b');
      assert a == a' + [a[|a| - 1]];
      assert b == b' + [b[|b| - 1]];
    }
  }

  /** A digit string is the zero-padded spelling of its own value. */
  lemma CanonicalDigits(s: string)
    requires 1 <= |s| && AllDigits(s)
    ensures PadLeft(DigitsValue(s), |s|) == s
  {
    DigitsValueBound(s);
    PadLeftFacts(DigitsValue(s), |s|);
    DigitsInjective(PadLeft(DigitsValue(s), |s|), s);
  }
}

=== FILE: choose.dfy ===
/** `helper.ChooseString` / `helper.ChooseNullString`: the fallback rule the
    member update uses, where an empty form value means "keep what is stored". */
module Choose {
  import opened Model

  function ChooseString(newVal: string, oldVal: string): (r: string)
    ensures newVal != "" ==> r == newVal
    ensures newVal == "" ==> r == oldVal
  {
    if newVal != "" then newVal else oldVal
  }

  function ChooseNullString(newVal: string, oldVal: NullString): (r: NullString)
    ensures newVal != "" ==> r == Valid(newVal)
    ensures newVal == "" ==> r == oldVal
  {
    if newVal != "" then Valid(newVal) else oldVal
  }

  /** Choosing again with the same new value changes nothing. */
  lemma ChooseIdempotent(newVal: string, oldVal: string, oldNull: NullString)
    ensures ChooseString(newVal, ChooseString(newVal, oldVal)) == ChooseString(newVal, oldVal)
    ensures ChooseNullString(newVal, ChooseNullString(newVal, oldNull)) == ChooseNullString(newVal, oldNull)
  {
  }

  /** The two helpers agree: the text the nullable choice carries is the
      plain choice on the stored text. */
  lemma ChooseNullStringAgrees(newVal: string, oldVal: NullString)
    ensures ChooseNullString(newVal, oldVal).String() == ChooseString(newVal, oldVal.String())
  {
  }
}

=== FILE: converter.dfy ===
/** `helper/converter.go`: the projections of a member onto the response
    records. They read the cohort and department NAMES from the joined
    records and turn each NULL string into "". The member response has
    `role` and `login_token` fields that no projection fills, so they stay
    "".
 */
module Converter {
  import opened Outcomes
  import opened CustomDates
  import opened Model

  datatype MemberResponse = MemberResponse(
    idMember: string,
    nra: string,
    nama: string,
    angkatan: string,
    statusKeanggotaan: string,
    role: string,
    jurusan: string,
    tanggalDikukuhkan: Option<CustomDate>,
    email: string,
    noHp: string,
    password: string,
    loginToken: string,
    foto: string)

  datatype MemberCreateResponse = MemberCreateResponse(
    idMember: string,
    nra: string,
    nama: string,
    angkatan: string,
    statusKeanggotaan: string,
    role: string,
    jurusan: string,
    tanggalDikukuhkan: Option<CustomDate>,
    foto: string,
    loginToken: string)

  datatype ProfileResponse = ProfileResponse(
    idMember: string,
    nra: string,
    nama: string,
    angkatan: string,
    statusKeanggotaan: string,
    jurusan: string,
    tanggalDikukuhkan: Option<CustomDate>,
    email: string,
    noHp: string,
    foto: string)

  /** `ConvertMemberToResponseDTO`. */
  function ToMemberResponse(m: Member): (r: MemberResponse)
    ensures r.idMember == m.idMember && r.nama == m.row.nama
    ensures r.statusKeanggotaan == m.row.statusKeanggotaan && r.tanggalDikukuhkan == m.row.tanggalDikukuhkan
    ensures r.angkatan == m.angkatan.namaAngkatan && r.jurusan == m.jurusan.namaJurusan
    ensures m.row.nra.Null? ==> r.nra == ""
    ensures m.row.nra.Valid? ==> r.nra == m.row.nra.value
    ensures r.role == "" && r.loginToken == ""
  {
    MemberResponse(m.idMember, m.row.nra.String(), m.row.nama, m.angkatan.namaAngkatan,
                   m.row.statusKeanggotaan, "", m.jurusan.namaJurusan, m.row.tanggalDikukuhkan,
                   m.row.email.String(), m.row.noHp.String(), m.row.password.String(), "",
                   m.row.foto.String())
  }

  /** `ConvertMemberToProfileResponseDTO`. */
  function ToProfileResponse(m: Member): (r: ProfileResponse)
    ensures r.idMember == m.idMember && r.nama == m.row.nama
    ensures r.angkatan == m.angkatan.namaAngkatan && r.jurusan == m.jurusan.namaJurusan
  {
    ProfileResponse(m.idMember, m.row.nra.String(), m.row.nama, m.angkatan.namaAngkatan,
                    m.row.statusKeanggotaan, m.jurusan.namaJurusan, m.row.tanggalDikukuhkan,
                    m.row.email.String(), m.row.noHp.String(), m.row.foto.String())
  }

  /** `ConvertMemberToCreateResponseDTO`. */
  function ToCreateResponse(m: Member): (r: MemberCreateResponse)
    ensures r.idMember == m.idMember && r.nama == m.row.nama
    ensures r.loginToken == m.row.loginToken.String()
    ensures r.role == ""
  {
    MemberCreateResponse(m.idMember, m.row.nra.String(), m.row.nama, m.angkatan.namaAngkatan,
                         m.row.statusKeanggotaan, "", m.jurusan.namaJurusan, m.row.tanggalDikukuhkan,
                         m.row.foto.String(), m.row.loginToken.String())
  }

  /** `ConvertMemberToListResDTO`. */
  function ToMemberResponses(ms: seq<Member>): (rs: seq<MemberResponse>)
    ensures |rs| == |ms|
    ensures forall i :: 0 <= i < |ms| ==> rs[i] == ToMemberResponse(ms[i])
  {
    if ms == [] then [] else [ToMemberResponse(ms[0])] + ToMemberResponses(ms[1..])
  }

  // ---------------------------------------------------------------------
  // Properties

  /** The profile never depends on the password or the login token. */
  lemma ProfileHidesSecrets(m: Member, password: NullString, token: NullString)
    ensures ToProfileResponse(m.(row := m.row.(password := password, loginToken := token))) == ToProfileResponse(m)
  {
  }

  /** The create response never depends on e-mail, phone or password, and
      it does carry the login token. */
  lemma CreateResponseFields(m: Member, email: NullString, noHp: NullString, password: NullString)
    ensures ToCreateResponse(m.(row := m.row.(email := email, noHp := noHp, password := password))) == ToCreateResponse(m)
    ensures m.row.loginToken.Valid? ==> ToCreateResponse(m).loginToken == m.row.loginToken.value
  {
  }

  /** The member response never depends on the stored login token or role,
      but it does expose the stored password (hash). */
  lemma MemberResponseFields(m: Member, token: NullString, role: string)
    ensures ToMemberResponse(m.(row := m.row.(loginToken := token, role := role))) == ToMemberResponse(m)
    ensures ToMemberResponse(m).password == m.row.password.String()
  {
  }

  /** The profile is the member response without its password, role and
      token fields: the two projections agree on every field they share. */
  lemma ProfileAgreesWithMemberResponse(m: Member)
    ensures var r, p := ToMemberResponse(m), ToProfileResponse(m);
            p == ProfileResponse(r.idMember, r.nra, r.nama, r.angkatan, r.statusKeanggotaan, r.jurusan,
                                 r.tanggalDikukuhkan, r.email, r.noHp, r.foto)
  {
  }

  /** The list conversion distributes over concatenation, so it keeps the
      order of the members. */
  lemma {:induction false} ToMemberResponsesAppend(a: seq<Member>, b: seq<Member>)
    ensures ToMemberResponses(a + b) == ToMemberResponses(a) + ToMemberResponses(b)
  {
    if a != [] {
      assert (a + b)[1..] == a[1..] + b;
      ToMemberResponsesAppend(a[1..], b);
    }
  }
}

=== FILE: custom_date.dfy ===
/** `util.CustomDate`: a wrapper around Go's `time.Time` that is written to
    JSON as a quoted `YYYY-MM-DD` date and read from the database either as
    a time value or as `YYYY-MM-DD` text.

    A `Time` keeps the calendar date and, opaquely, the time of day; the
    location is not modelled. Go's `time.Parse` checks the month range and
    then the day against the month's length (leap years included), so the
    parsers below accept a date only when `ValidDate` holds.
 */
module CustomDates {
  import opened Outcomes
  import opened Ascii

  datatype Date = Date(year: int, month: nat, day: nat)

  /** A `time.Time`: its calendar date and its time of day (nanoseconds). */
  datatype Time = Time(date: Date, clock: nat)

  datatype CustomDate = CustomDate(time: Time)

  /** A database value handed to `Scan`, by its dynamic Go type. */
  datatype ScanSource =
    | TimeSource(t: Time)
    | BytesSource(bytes: seq<byte>)
    | StringSource(text: string)
    | OtherSource

  newtype byte = x: int | 0 <= x < 256

  predicate IsLeap(year: int)
  {
    year % 4 == 0 && (year % 100 != 0 || year % 400 == 0)
  }

  function DaysIn(month: nat, year: int): nat
  {
    if month == 2 then (if IsLeap(year) then 29 else 28)
    else if month == 4 || month == 6 || month == 9 || month == 11 then 30
    else 31
  }

  /** The calendar check `time.Parse` applies after reading the digits. */
  predicate ValidDate(d: Date)
  {
    1 <= d.month <= 12 && 1 <= d.day <= DaysIn(d.month, d.year)
  }

  /** The years a four-digit `2006` field can spell. */
  predicate FourDigitYear(d: Date)
  {
    0 <= d.year <= 9999
  }

  /** Go's `Format` for the `2006` element: a sign for negative years, then
      at least four digits. */
  function FormatYear(year: int): string
  {
    if year < 0 then "-" + PadLeft(-year, 4) else PadLeft(year, 4)
  }

  /** `Format("2006-01-02")`. */
  function FormatIso(d: Date): string
  {
    FormatYear(d.year) + "-" + PadLeft(d.month, 2) + "-" + PadLeft(d.day, 2)
  }

  /** `time.Parse("2006-01-02", s)`: four, two and two digits separated by
      dashes, nothing else, and a real calendar date. */
  function ParseIso(s: string): (r: Option<Date>)
    ensures r.Some? ==> ValidDate(r.value) && FourDigitYear(r.value)
  {
    if |s| == 10 && AllDigits(s[0..4]) && s[4] == '-' && AllDigits(s[5..7]) && s[7] == '-' && AllDigits(s[8..10]) then
      DigitsValueBound(s[0..4]);
      var d := Date(DigitsValue(s[0..4]), DigitsValue(s[5..7]), DigitsValue(s[8..10]));
      if ValidDate(d) then Some(d) else None
    else
      None
  }

  /** `time.Parse("02-01-2006", s)`, the layout the member forms use. */
  function ParseDayMonthYear(s: string): (r: Option<Date>)
    ensures r.Some? ==> ValidDate(r.value) && FourDigitYear(r.value)
  {
    if |s| == 10 && AllDigits(s[0..2]) && s[2] == '-' && AllDigits(s[3..5]) && s[5] == '-' && AllDigits(s[6..10]) then
      DigitsValueBound(s[6..10]);
      var d := Date(DigitsValue(s[6..10]), DigitsValue(s[3..5]), DigitsValue(s[0..2]));
      if ValidDate(d) then Some(d) else None
    else
      None
  }

  /** The instant `time.Parse` returns for a date: midnight. */
  function Midnight(d: Date): Time { Time(d, 0) }

  const ParseFailure: string := "parsing time: cannot parse"

  function MarshalJSON(cd: CustomDate): (r: string)
    ensures |r| >= 2 && r[0] == '"' && r[|r| - 1] == '"'
  {
    "\"" + FormatIso(cd.time.date) + "\""
  }

  /** The receiver after `UnmarshalJSON(b)` and the error it returned: the
      receiver is left as it was whenever the call fails. */
  function UnmarshalJSON(cd: CustomDate, b: string): (r: (CustomDate, Option<string>))
    ensures r.1.None? <==> (2 <= |b| && b[0] == '"' && b[|b| - 1] == '"' && ParseIso(b[1..|b| - 1]).Some?)
    ensures r.1.None? ==> r.0 == CustomDate(Midnight(ParseIso(b[1..|b| - 1]).value))
    ensures r.1.Some? ==> r.0 == cd
  {
    if 2 <= |b| && b[0] == '"' && b[|b| - 1] == '"' then
      match ParseIso(b[1..|b| - 1])
      case Some(d) => (CustomDate(Midnight(d)), None)
      case None => (cd, Some(ParseFailure))
    else
      (cd, Some(ParseFailure))
  }

  /** `Value()`: the time written to the database. */
  function Value(cd: CustomDate): Time { cd.time }

  /** Go's `string(bytes)` on a byte slice, one character per byte. */
  function BytesToString(bytes: seq<byte>): (s: string)
    ensures |s| == |bytes|
  {
    seq(|bytes|, i requires 0 <= i < |bytes| => bytes[i] as int as char)
  }

  /** The bytes of an ASCII string. */
  function AsciiBytes(s: string): (bytes: seq<byte>)
    requires forall i :: 0 <= i < |s| ==> s[i] as int < 128
    ensures |bytes| == |s|
  {
    seq(|s|, i requires 0 <= i < |s| => s[i] as int as byte)
  }

  /** The receiver after `Scan(v)` and the error it returned. */
  function Scan(cd: CustomDate, v: ScanSource): (r: (CustomDate, Option<string>))
    ensures r.1.Some? ==> r.0 == cd
    ensures v.OtherSource? ==> r.1.Some?
    ensures v.TimeSource? ==> r == (CustomDate(v.t), None)
  {
    match v
    case TimeSource(t) => (CustomDate(t), None)
    case BytesSource(bytes) => ScanText(cd, BytesToString(bytes))
    case StringSource(text) => ScanText(cd, text)
    case OtherSource => (cd, Some("unsupported Scan type for CustomDate"))
  }

  function ScanText(cd: CustomDate, text: string): (r: (CustomDate, Option<string>))
    ensures r.1.None? <==> ParseIso(text).Some?
    ensures r.1.None? ==> r.0 == CustomDate(Midnight(ParseIso(text).value))
    ensures r.1.Some? ==> r.0 == cd
  {
    match ParseIso(text)
    case Some(d) => (CustomDate(Midnight(d)), None)
    case None => (cd, Some(ParseFailure))
  }

  // ---------------------------------------------------------------------
  // Properties

  lemma FormatIsoShape(d: Date)
    requires ValidDate(d) && FourDigitYear(d)
    ensures |FormatIso(d)| == 10
    ensures FormatIso(d)[0..4] == PadLeft(d.year, 4)
    ensures FormatIso(d)[4] == '-' && FormatIso(d)[7] == '-'
    ensures FormatIso(d)[5..7] == PadLeft(d.month, 2)
    ensures FormatIso(d)[8..10] == PadLeft(d.day, 2)
  {
    PadLeftFacts(d.year, 4);
    PadLeftFacts(d.month, 2);
    PadLeftFacts(d.day, 2);
  }

  /** Formatting a date and parsing it back gives the same date. */
  lemma ParseFormatIso(d: Date)
    requires ValidDate(d) && FourDigitYear(d)
    ensures ParseIso(FormatIso(d)) == Some(d)
  {
    FormatIsoShape(d);
    PadLeftFacts(d.year, 4);
    PadLeftFacts(d.month, 2);
    PadLeftFacts(d.day, 2);
  }

  /** Every text `ParseIso` accepts is the formatting of the date it yields:
      the `YYYY-MM-DD` spelling of a date is unique. */
  lemma FormatParseIso(s: string)
    requires ParseIso(s).Some?
    ensures FormatIso(ParseIso(s).value) == s
  {
    var d := ParseIso(s).value;
    CanonicalDigits(s[0..4]);
    CanonicalDigits(s[5..7]);
    CanonicalDigits(s[8..10]);
    assert s == s[0..4] + "-" + s[5..7] + "-" + s[8..10];
  }

  /** Round trip: unmarshalling what `MarshalJSON` wrote restores the
      calendar date (at midnight), whatever the receiver held before. */
  lemma JsonRoundTrip(cd: CustomDate, receiver: CustomDate)
    requires ValidDate(cd.time.date) && FourDigitYear(cd.time.date)
    ensures UnmarshalJSON(receiver, MarshalJSON(cd)).1 == None
    ensures UnmarshalJSON(receiver, MarshalJSON(cd)).0.time.date == cd.time.date
  {
    var b := MarshalJSON(cd);
    assert b[1..|b| - 1] == FormatIso(cd.time.date);
    ParseFormatIso(cd.time.date);
  }

  /** The two layouts read the same calendar dates: a dash-separated
      `DD-MM-YYYY` text parses exactly as its rearrangement into
      `YYYY-MM-DD`. */
  lemma DayMonthYearAgreesWithIso(s: string)
    requires |s| == 10
    ensures ParseDayMonthYear(s) ==
              if s[2] == '-' && s[5] == '-' then ParseIso(s[6..10] + "-" + s[3..5] + "-" + s[0..2]) else None
  {
    var t := s[6..10] + "-" + s[3..5] + "-" + s[0..2];
    assert |t| == 10 && t[4] == '-' && t[7] == '-';
    assert t[0..4] == s[6..10];
    assert t[5..7] == s[3..5];
    assert t[8..10] == s[0..2];
    var shape := AllDigits(s[0..2]) && s[2] == '-' && AllDigits(s[3..5]) && s[5] == '-' && AllDigits(s[6..10]);
    if shape {
      var d := Date(DigitsValue(s[6..10]), DigitsValue(s[3..5]), DigitsValue(s[0..2]));
      assert ParseIso(t) == (if ValidDate(d) then Some(d) else None);
    } else if s[2] == '-' && s[5] == '-' {
      assert ParseIso(t) == None;
    }
  }

  /** A database value is the same date whether the driver hands it over as
      text or as the bytes of that text. */
  lemma ScanBytesAgreesWithString(cd: CustomDate, s: string)
    requires forall i :: 0 <= i < |s| ==> s[i] as int < 128
    ensures Scan(cd, BytesSource(AsciiBytes(s))) == Scan(cd, StringSource(s))
  {
    assert BytesToString(AsciiBytes(s)) == s;
  }

  /** What `Value` writes, `Scan` reads back unchanged. */
  lemma ScanReadsValue(cd: CustomDate, receiver: CustomDate)
    ensures Scan(receiver, TimeSource(Value(cd))) == (cd, None)
  {
  }
}

=== FILE: file_names.dfy ===
/** The photo file names the member service builds. The files themselves
    are not modelled, only the names: `nra + "_" + nama + extension`, where
    the extension is Go's `filepath.Ext` of the uploaded or stored name.
 */
module FileNames {

  /** No '.' or '/' in `s` after its first character. */
  predicate PlainTail(s: string)
  {
    forall i :: 1 <= i < |s| ==> s[i] != '.' && s[i] != '/'
  }

  /** Every '.' of `path` has a '/' after it: the last path element has no
      extension. */
  predicate NoExtension(path: string)
  {
    forall i :: 0 <= i < |path| && path[i] == '.' ==> exists k :: i < k < |path| && path[k] == '/'
  }

  /** `filepath.Ext`: scanning back from the end, the suffix that starts at
      the first '.' met, or "" when a '/' or the start comes first. */
  function Ext(path: string): (e: string)
    ensures e == "" || (e[0] == '.' && PlainTail(e))
    ensures |e| <= |path| && path[|path| - |e|..] == e
    ensures e == "" <==> NoExtension(path)
  {
    if |path| == 0 then ""
    else
      var last := path[|path| - 1];
      var init := path[..|path| - 1];
      if last == '/' then
        assert NoExtension(path) by {
          forall i | 0 <= i < |path| && path[i] == '.' ensures exists k :: i < k < |path| && path[k] == '/' {
            assert path[|path| - 1] == '/';
          }
        }
        ""
      else if last == '.' then "."
      else
        var e := Ext(init);
        ExtStep(path, e);
        if e == "" then "" else e + [last]
  }

  /** The inductive step of `Ext` for a last character that is neither '.'
      nor '/'. */
  lemma ExtStep(path: string, e: string)
    requires |path| > 0 && path[|path| - 1] != '.' && path[|path| - 1] != '/'
    requires e == "" || (e[0] == '.' && PlainTail(e))
    requires |e| <= |path| - 1 && path[..|path| - 1][|path| - 1 - |e|..] == e
    requires e == "" <==> NoExtension(path[..|path| - 1])
    ensures e == "" <==> NoExtension(path)
    ensures e != "" ==> path[|path| - |e + [path[|path| - 1]]|..] == e + [path[|path| - 1]]
  {
    var init := path[..|path| - 1];
    if NoExtension(init) {
      forall i | 0 <= i < |path| && path[i] == '.' ensures exists k :: i < k < |path| && path[k] == '/' {
        assert init[i] == path[i];
        var k :| i < k < |init| && init[k] == '/';
        assert path[k] == '/';
      }
    } else {
      var i :| 0 <= i < |init| && init[i] == '.' && !exists k :: i < k < |init| && init[k] == '/';
      assert path[i] == '.';
      assert !exists k :: i < k < |path| && path[k] == '/' by {
        forall k | i < k < |path| ensures path[k] != '/' {
          if k < |init| { assert init[k] == path[k]; }
        }
      }
    }
    if e != "" {
      assert path == init + [path[|path| - 1]];
    }
  }

  /** Appending a plain extension to any name makes `Ext` return exactly
      that extension. */
  lemma {:induction false} ExtOfAppended(name: string, e: string)
    requires e != "" && e[0] == '.' && PlainTail(e)
    ensures Ext(name + e) == e
    decreases |e|
  {
    var path := name + e;
    if |e| > 1 {
      var e' := e[..|e| - 1];
      assert PlainTail(e');
      assert path[..|path| - 1] == name + e';
      ExtOfAppended(name, e');
    }
  }

  /** `fmt.Sprintf("%s_%s%s", nra, nama, ext)`. */
  function PhotoFileName(nra: string, nama: string, ext: string): (f: string)
    ensures |f| == |nra| + 1 + |nama| + |ext|
    ensures f[..|nra|] == nra && f[|nra|] == '_' && f[|nra| + 1..|nra| + 1 + |nama|] == nama
    ensures f[|f| - |ext|..] == ext
  {
    nra + "_" + nama + ext
  }

  /** A photo file name keeps the extension of the file it was named after,
      so a rename under a new NRA or name keeps the type of the image. */
  lemma PhotoNameKeepsExt(nra: string, nama: string, source: string)
    requires Ext(source) != ""
    ensures Ext(PhotoFileName(nra, nama, Ext(source))) == Ext(source)
  {
    ExtOfAppended(nra + "_" + nama, Ext(source));
  }

  /** `strings.ReplaceAll(s, " ", "_")`. */
  function ReplaceSpaces(s: string): (r: string)
    ensures |r| == |s|
    ensures forall i :: 0 <= i < |s| ==> r[i] == (if s[i] == ' ' then '_' else s[i])
    ensures forall i :: 0 <= i < |r| ==> r[i] != ' '
  {
    if s == [] then []
    else [if s[0] == ' ' then '_' else s[0]] + ReplaceSpaces(s[1..])
  }

  /** A name without spaces is left as it is, so replacing twice is the same
      as replacing once. */
  lemma {:induction false} ReplaceSpacesFixes(s: string)
    requires forall i :: 0 <= i < |s| ==> s[i] != ' '
    ensures ReplaceSpaces(s) == s
  {
    if s != [] {
      ReplaceSpacesFixes(s[1..]);
    }
  }

  lemma ReplaceSpacesIdempotent(s: string)
    ensures ReplaceSpaces(ReplaceSpaces(s)) == ReplaceSpaces(s)
  {
    ReplaceSpacesFixes(ReplaceSpaces(s));
  }
}

=== FILE: member_properties.dfy ===
/** Properties of the member service across several operations: what a
    created or updated member reads back as, the one-time login token, the
    password round trip, the profile round trip, and the two places where
    the source drops what it evidently meant to keep.
 */
module MemberProperties {
  import opened Outcomes
  import opened Model
  import opened FileNames
  import opened Converter
  import MR = MemberRepository
  import opened MemberService
  import opened Validators

  /** At most one member holds `nra`. */
  ghost predicate UniqueNra(t: MemberTables, nra: string)
  {
    forall a, b :: a in t.members && b in t.members && t.members[a].nra == Valid(nra) && t.members[b].nra == Valid(nra) ==> a == b
  }

  /** At most one member holds the login token. */
  ghost predicate UniqueToken(t: MemberTables, token: string)
  {
    forall a, b :: (a in t.members && b in t.members
                    && t.members[a].loginToken == Valid(token) && t.members[b].loginToken == Valid(token)) ==> a == b
  }

  // ---------------------------------------------------------------------
  // Lookups by a unique key

  /** The only holder of an NRA, when the joins find its rows, is what the
      lookup by that NRA returns. */
  lemma LookupUniqueNra(t: MemberTables, nra: string, id: string)
    requires UniqueNra(t, nra) && id in t.members && t.members[id].nra == Valid(nra)
    requires MR.Joinable(t, t.members[id])
    ensures MR.GetMemberByNRA(t, nra) == Ok(MR.JoinRow(t, id))
  {
    assert MR.SomeNra(t, nra);
  }

  lemma LookupUniqueToken(t: MemberTables, token: string, id: string)
    requires UniqueToken(t, token) && id in t.members && t.members[id].loginToken == Valid(token)
    requires MR.Joinable(t, t.members[id])
    ensures MR.GetMemberByToken(t, token) == Ok(MR.JoinRow(t, id))
  {
    assert MR.SomeToken(t, token);
  }

  // ---------------------------------------------------------------------
  // Cohorts

  /** Ensuring a cohort twice is ensuring it once. */
  lemma EnsureAngkatanIdempotent(t: MemberTables, id: string)
    ensures EnsureAngkatan(EnsureAngkatan(t, id).0, id) == EnsureAngkatan(t, id)
  {
  }

  /** A failed insert still leaves the cohort it created: the transaction is
      committed on every path. */
  lemma FailedAddKeepsCohort(t: MemberTables, form: MemberForm, upload: Upload, id: string, token: string)
    requires CheckMemberForm(form).Ok? && upload.Uploaded? && MR.SomeJurusanNamed(t, form.jurusan)
    requires id in t.members && form.angkatan !in t.angkatan
    ensures var (t2, r) := AddMember(t, form, upload, id, token);
            && r.Err? && r.error.status == InternalServerError
            && t2.members == t.members
            && form.angkatan in t2.angkatan && t2.angkatan[form.angkatan] == CohortName(form.angkatan)
  {
  }

  // ---------------------------------------------------------------------
  // AddMember

  /** A created member reads back by its id as the record `AddMember`
      built, and the response is the create projection of that read. */
  lemma AddMemberThenGet(t: MemberTables, form: MemberForm, upload: Upload, id: string, token: string)
    requires AddMember(t, form, upload, id, token).1.Ok?
    ensures var t2 := AddMember(t, form, upload, id, token).0;
            && MR.GetMemberById(t2, id).Ok?
            && MR.GetMemberById(t2, id).value == CreateMember(t, form, upload, MR.GetJurusanByName(t, form.jurusan), id, token).1.value
            && AddMember(t, form, upload, id, token).1.value == ToCreateResponse(MR.GetMemberById(t2, id).value)
  {
    var j := MR.GetJurusanByName(t, form.jurusan);
    var (t2, created) := CreateMember(t, form, upload, j, id, token);
    var m := created.value;
    assert t2.members[id] == m.row;
    assert MR.Joinable(t2, m.row);
    assert MR.JoinRow(t2, id) == m;
  }

  /** The token handed out at creation logs the new member in once, with
      the NRA, name and status of the form, and then no more. */
  lemma AddMemberThenLoginToken(t: MemberTables, form: MemberForm, upload: Upload, id: string, token: string)
    requires AddMember(t, form, upload, id, token).1.Ok?
    requires token != "" && forall k :: k in t.members ==> t.members[k].loginToken != Valid(token)
    ensures var t2 := AddMember(t, form, upload, id, token).0;
            && LoginToken(t2, token).Ok?
            && LoginToken(t2, token).value.1 == Claims(form.nra, form.nama, form.statusKeanggotaan)
            && LoginToken(LoginToken(t2, token).value.0, token).Err?
  {
    var t2 := AddMember(t, form, upload, id, token).0;
    AddedRow(t, form, upload, id, token);
    AddedTokenUnique(t, t2, id, token);
    HolderLogsIn(t2, id, token);
  }

  /** The row `AddMember` adds, as far as the token login reads it. */
  lemma AddedRow(t: MemberTables, form: MemberForm, upload: Upload, id: string, token: string)
    requires AddMember(t, form, upload, id, token).1.Ok?
    ensures var t2 := AddMember(t, form, upload, id, token).0;
            && MR.GetMemberById(t2, id).Ok?
            && t2.members.Keys == t.members.Keys + {id}
            && (forall k :: k in t.members && k != id ==> t2.members[k] == t.members[k])
            && var row := t2.members[id];
               row.loginToken == Valid(token) && row.nra == Valid(form.nra)
               && row.nama == form.nama && row.statusKeanggotaan == form.statusKeanggotaan
  {
    AddMemberThenGet(t, form, upload, id, token);
  }

  /** The only holder of a token logs in with it, once. */
  lemma HolderLogsIn(t: MemberTables, id: string, token: string)
    requires UniqueToken(t, token) && token != ""
    requires MR.GetMemberById(t, id).Ok? && t.members[id].loginToken == Valid(token)
    ensures var m := MR.GetMemberById(t, id).value;
            && LoginToken(t, token) == Ok((MR.UpdateMemberToken(t, id, ""), Claims(m.row.nra.String(), m.row.nama, m.row.statusKeanggotaan)))
            && LoginToken(LoginToken(t, token).value.0, token).Err?
  {
    LookupUniqueToken(t, token, id);
    LoginTokenSingleUse(t, token);
  }

  lemma AddedTokenUnique(t: MemberTables, t2: MemberTables, id: string, token: string)
    requires forall k :: k in t.members ==> t.members[k].loginToken != Valid(token)
    requires id in t2.members && t2.members.Keys == t.members.Keys + {id}
    requires forall k :: k in t.members && k != id ==> t2.members[k] == t.members[k]
    ensures UniqueToken(t2, token)
  {
  }

  // ---------------------------------------------------------------------
  // Login

  /** A login token works once: the login clears it, so the same token
      finds no member afterwards. */
  lemma LoginTokenSingleUse(t: MemberTables, token: string)
    requires LoginToken(t, token).Ok?
    requires UniqueToken(t, token)
    ensures LoginToken(LoginToken(t, token).value.0, token).Err?
    ensures LoginToken(LoginToken(t, token).value.0, token).error.status == InternalServerError
  {
    var m := MR.GetMemberByToken(t, token).value;
    MR.ClearedTokenNotFound(t, m.idMember, token);
  }

  /** After setting a password, logging in with it succeeds, as long as
      the hash verifies against the password and the NRA is unique. */
  lemma SetPasswordThenLogin(t: MemberTables, nra: string, password: string, hashed: string,
                             verify: (string, string) -> bool)
    requires SetPassword(t, nra, password, hashed).Ok?
    requires verify(hashed, password)
    requires nra != "" && UniqueNra(t, nra)
    ensures Login(SetPassword(t, nra, password, hashed).value, nra, password, verify).Ok?
  {
    var m := MR.GetMemberByNRA(t, nra).value;
    var t2 := SetPassword(t, nra, password, hashed).value;
    assert t2 == MR.UpdateMemberPassword(t, m.idMember, hashed);
    assert t2.members[m.idMember] == t.members[m.idMember].(password := Valid(hashed));
    assert UniqueNra(t2, nra);
    assert MR.Joinable(t2, t2.members[m.idMember]);
    LookupUniqueNra(t2, nra, m.idMember);
    assert MR.GetMemberByNRA(t2, nra).value.row.password.String() == hashed;
  }

  // ---------------------------------------------------------------------
  // Profile

  /** The profile after completing it shows the e-mail, phone, name and
      photo just sent, the photo named after the NRA. */
  lemma CompleteProfileThenGetProfile(t: MemberTables, nra: string, form: ProfileForm, upload: Upload)
    requires CompleteProfile(t, nra, form, upload).Ok?
    requires UniqueNra(t, nra)
    ensures var t2 := CompleteProfile(t, nra, form, upload).value.0;
            var p := GetProfile(t2, nra);
            && p.Ok?
            && p.value.email == form.email && p.value.noHp == form.noHp && p.value.nama == form.nama
            && p.value.foto == PhotoFileName(nra, ReplaceSpaces(form.nama), Ext(upload.fileName))
  {
    var m := MR.GetMemberByNRA(t, nra).value;
    var t2 := CompleteProfile(t, nra, form, upload).value.0;
    assert UniqueNra(t2, nra);
    LookupUniqueNra(t2, nra, m.idMember);
  }

  // ---------------------------------------------------------------------
  // UpdateMember and DeleteMember

  /** The update's response is what reading the member back returns, and
      the role survives the update. */
  lemma UpdateMemberThenGet(t: MemberTables, id: string, form: MemberForm, upload: Upload)
    requires UpdateMember(t, id, form, upload).Ok?
    ensures var (t2, resp) := UpdateMember(t, id, form, upload).value;
            && MR.GetMemberById(t2, id).Ok?
            && resp == ToMemberResponse(MR.GetMemberById(t2, id).value)
            && t2.members[id].role == t.members[id].role
  {
    var j := MR.GetJurusanByName(t, form.jurusan);
    var (t1, m) := PrepareUpdate(t, id, form, upload, j).value;
    var t2 := MR.UpdateMember(t1, id, m.row);
    var stored := MR.GetMemberById(t, id).value;
    assert t2.members[id] == m.row;
    assert MR.Joinable(t2, m.row);
    assert MR.JoinRow(t2, id) == m;
  }

  /** A deleted member can no longer be read. */
  lemma DeleteThenGet(t: MemberTables, id: string)
    requires DeleteMember(t, id).Ok?
    ensures GetMemberById(DeleteMember(t, id).value, id).Err?
  {
    MR.DeleteThenGet(t, id, id + "'");
  }

  // ---------------------------------------------------------------------
  // Where the source loses what it meant to keep

  const ExampleRow: MemberRow :=
    MemberRow(Valid("13.22.015"), "Ana", "015", "aktif", BoardRole, Valid("j1"), None, Null, Null, Null, Null, Null)

  const ExampleTables: MemberTables :=
    MemberTables(map["m1" := ExampleRow], map["015" := "Angkatan 015"], map["j1" := "Informatika"])

  const BlankForm: MemberForm := MemberForm("", "", "", "", "", "")

  /** Saving the edit form unchanged demotes a board member: the record
      written back has no role, so "bph" becomes "". The response also
      names no cohort, although the member has one. The corrected update
      keeps both. */
  lemma BlankEditDemotesBoardMember()
    ensures var r := UpdateMemberAsWritten(ExampleTables, "m1", BlankForm, NoFile, Err(NoRows));
            && ExampleTables.members["m1"].role == BoardRole
            && r.Ok? && r.value.0.members["m1"].role == "" && r.value.1.angkatan == ""
    ensures var r := UpdateMemberAs(ExampleTables, "m1", BlankForm, NoFile, Err(NoRows));
            && r.Ok? && r.value.0.members["m1"].role == BoardRole && r.value.1.angkatan == "Angkatan 015"
  {
    var t := ExampleTables;
    assert MR.GetMemberById(t, "m1") == Ok(Member("m1", ExampleRow, Angkatan("015", "Angkatan 015"), Jurusan("j1", "Informatika")));
    assert ParseFormDate("") == Ok(None);
  }

  /** The as-written update always stores an empty role, whatever the
      member had. */
  lemma UpdateAsWrittenClearsRole(t: MemberTables, id: string, form: MemberForm, upload: Upload, jurusan: Result<Jurusan, string>)
    requires UpdateMemberAsWritten(t, id, form, upload, jurusan).Ok?
    ensures UpdateMemberAsWritten(t, id, form, upload, jurusan).value.0.members[id].role == ""
    ensures UpdateMemberAs(t, id, form, upload, jurusan).value.0.members[id].role == t.members[id].role
  {
  }

  /** A new member's create response names no cohort or department as
      written, although both exist; the corrected response names them. */
  const NewMemberForm: MemberForm := MemberForm("13.22.016", "Budi", "015", "aktif", "Informatika", "")

  lemma CreateResponseDropsNames()
    ensures var j := Ok(Jurusan("j1", "Informatika"));
            var written := AddMemberAsWritten(ExampleTables, NewMemberForm, Uploaded("budi.jpg"), j, "m2", "tok");
            var corrected := AddMemberAs(ExampleTables, NewMemberForm, Uploaded("budi.jpg"), j, "m2", "tok");
            && written.1.Ok? && written.1.value.angkatan == "" && written.1.value.jurusan == ""
            && corrected.1.Ok? && corrected.1.value.angkatan == "Angkatan 015" && corrected.1.value.jurusan == "Informatika"
  {
    var j := Ok(Jurusan("j1", "Informatika"));
    NewMemberFormPasses();
    assert "m2" !in ExampleTables.members;
    assert EnsureAngkatan(ExampleTables, "015").1 == Angkatan("015", "Angkatan 015");
    var c := CreateMember(ExampleTables, NewMemberForm, Uploaded("budi.jpg"), j, "m2", "tok");
    assert c.1.Ok? && c.1.value.angkatan.namaAngkatan == "Angkatan 015";
  }

  /** The example form passes every check. */
  lemma NewMemberFormPasses()
    ensures CheckMemberForm(NewMemberForm).Ok?
  {
    Validators.NraCheckMatchesPattern(NewMemberForm.nra);
    assert ParseFormDate(NewMemberForm.tanggalDikukuhkan) == Ok(None);
  }
  // ---------------------------------------------------------------------
  // The order of the form checks

  /** With a well-formed date, the member form reports the first empty
      field in the order nra, nama, angkatan, status, jurusan, and only
      then looks at the NRA's format. */
  lemma MemberFormCheckOrder(form: MemberForm)
    requires ParseFormDate(form.tanggalDikukuhkan).Ok?
    ensures form.nra != "" && form.nama == "" ==>
              CheckMemberForm(form) == Err(BadRequestError("field name cannot be empty"))
    ensures form.nra != "" && form.nama != "" && form.angkatan == "" ==>
              CheckMemberForm(form) == Err(BadRequestError("field generation cannot be empty"))
    ensures form.nra != "" && form.nama != "" && form.angkatan != "" && form.statusKeanggotaan == "" ==>
              CheckMemberForm(form) == Err(BadRequestError("field membership status cannot be empty"))
    ensures form.nra != "" && form.nama != "" && form.angkatan != "" && form.statusKeanggotaan != ""
            && form.jurusan == "" ==>
              CheckMemberForm(form) == Err(BadRequestError("the major field cannot be empty"))
    ensures form.nra != "" && form.nama != "" && form.angkatan != "" && form.statusKeanggotaan != ""
            && form.jurusan != "" && !IsValidNRA(form.nra) ==>
              CheckMemberForm(form) == Err(BadRequestError("invalid nra format"))
  {
    var fields := RequiredFields(form);
    assert fields[0].0 == form.nra && fields[1].0 == form.nama && fields[2].0 == form.angkatan;
    assert fields[3].0 == form.statusKeanggotaan && fields[4].0 == form.jurusan;
  }

  /** The profile form checks e-mail and phone, then the date, then the
      name, then the photo. */
  lemma ProfileFormCheckOrder(nra: string, form: ProfileForm, upload: Upload)
    requires ParseFormDate(form.tanggalDikukuhkan).Ok?
    ensures form.email == "" || form.noHp == "" ==>
              CheckProfileForm(nra, form, upload) == Err(BadRequestError("email and nomor_hp are required"))
    ensures form.email != "" && form.noHp != "" && form.tanggalDikukuhkan == "" ==>
              CheckProfileForm(nra, form, upload) == Err(BadRequestError("tanggal_dikukuhkan is required"))
    ensures form.email != "" && form.noHp != "" && form.tanggalDikukuhkan != "" && form.nama == "" ==>
              CheckProfileForm(nra, form, upload) == Err(BadRequestError("nama is required"))
    ensures form.email != "" && form.noHp != "" && form.tanggalDikukuhkan != "" && form.nama != "" && upload.NoFile? ==>
              CheckProfileForm(nra, form, upload) == Err(BadRequestError("foto file is required"))
  {
  }
}

=== FILE: member_repository.dfy ===
/** `repository/member_repository.go`: the member, cohort (`angkatan`) and
    department (`jurusan`) tables as maps keyed by id. Each write changes
    exactly the columns its SQL statement names. Each read that selects by
    a column other than the key returns one matching row, and which one is
    left open, as a `QueryRow` without `ORDER BY` does.
 */
module MemberRepository {
  import opened Outcomes
  import opened CustomDates
  import opened Model

  /** The lookups scan the LEFT-JOINed cohort and department columns into
      plain Go strings, so they fail unless both joins find a row. */
  predicate Joinable(t: MemberTables, row: MemberRow)
  {
    && row.angkatanId in t.angkatan
    && row.jurusanId.Valid?
    && row.jurusanId.value in t.jurusan
  }

  /** The member the lookups return for the stored row `id`. */
  function JoinRow(t: MemberTables, id: string): (m: Member)
    requires id in t.members && Joinable(t, t.members[id])
    ensures m.idMember == id && m.row == t.members[id]
    ensures m.angkatan.idAngkatan == m.row.angkatanId && Valid(m.jurusan.idJurusan) == m.row.jurusanId
    ensures m.angkatan.namaAngkatan == t.angkatan[m.row.angkatanId]
    ensures m.jurusan.namaJurusan == t.jurusan[m.jurusan.idJurusan]
  {
    var row := t.members[id];
    Member(id, row,
           Angkatan(row.angkatanId, t.angkatan[row.angkatanId]),
           Jurusan(row.jurusanId.value, t.jurusan[row.jurusanId.value]))
  }

  /** `m` is what a lookup of its own id returns. */
  predicate Stored(t: MemberTables, m: Member)
  {
    m.idMember in t.members && Joinable(t, t.members[m.idMember]) && m == JoinRow(t, m.idMember)
  }

  // ---------------------------------------------------------------------
  // Reads

  function GetMemberById(t: MemberTables, id: string): (r: Result<Member, string>)
    ensures r.Ok? <==> id in t.members && Joinable(t, t.members[id])
    ensures r.Ok? ==> Stored(t, r.value) && r.value.idMember == id
    ensures id !in t.members ==> r == Err(NoRows)
  {
    if id !in t.members then Err(NoRows)
    else if !Joinable(t, t.members[id]) then Err(NullScan)
    else Ok(JoinRow(t, id))
  }

  ghost predicate SomeNra(t: MemberTables, nra: string)
  {
    exists id :: id in t.members && t.members[id].nra == Valid(nra)
  }

  /** `WHERE m.nra = ?`: some member holding that NRA. A NULL NRA matches
      nothing. */
  ghost function GetMemberByNRA(t: MemberTables, nra: string): (r: Result<Member, string>)
    ensures r.Ok? ==> Stored(t, r.value) && r.value.row.nra == Valid(nra)
    ensures r == Err(NoRows) <==> !SomeNra(t, nra)
    ensures r.Err? && SomeNra(t, nra) ==>
              exists id :: id in t.members && t.members[id].nra == Valid(nra) && !Joinable(t, t.members[id])
  {
    if SomeNra(t, nra) then
      var id :| id in t.members && t.members[id].nra == Valid(nra);
      GetMemberById(t, id)
    else
      Err(NoRows)
  }

  ghost predicate SomeToken(t: MemberTables, token: string)
  {
    exists id :: id in t.members && t.members[id].loginToken == Valid(token)
  }

  /** `WHERE m.login_token = ?`: some member holding that token. */
  ghost function GetMemberByToken(t: MemberTables, token: string): (r: Result<Member, string>)
    ensures r.Ok? ==> Stored(t, r.value) && r.value.row.loginToken == Valid(token)
    ensures r == Err(NoRows) <==> !SomeToken(t, token)
    ensures r.Err? && SomeToken(t, token) ==>
              exists id :: id in t.members && t.members[id].loginToken == Valid(token) && !Joinable(t, t.members[id])
  {
    if SomeToken(t, token) then
      var id :| id in t.members && t.members[id].loginToken == Valid(token);
      GetMemberById(t, id)
    else
      Err(NoRows)
  }

  ghost predicate SomeJurusanNamed(t: MemberTables, name: string)
  {
    exists id :: id in t.jurusan && t.jurusan[id] == name
  }

  /** `WHERE nama_jurusan = ?`: some department with that name. */
  ghost function GetJurusanByName(t: MemberTables, name: string): (r: Result<Jurusan, string>)
    ensures r.Ok? ==> r.value.idJurusan in t.jurusan && t.jurusan[r.value.idJurusan] == name && r.value.namaJurusan == name
    ensures r.Err? <==> !SomeJurusanNamed(t, name)
    ensures r.Err? ==> r.error == NoRows
  {
    if SomeJurusanNamed(t, name) then
      var id :| id in t.jurusan && t.jurusan[id] == name;
      Ok(Jurusan(id, name))
    else
      Err(NoRows)
  }

  /** Fails with exactly `NoRows` when the cohort is absent: the member
      service tells that error apart from the others. */
  function GetAngkatanById(t: MemberTables, id: string): (r: Result<Angkatan, string>)
    ensures r.Ok? <==> id in t.angkatan
    ensures r.Ok? ==> r.value.idAngkatan == id && r.value.namaAngkatan == t.angkatan[id]
    ensures r.Err? ==> r.error == NoRows
  {
    if id in t.angkatan then Ok(Angkatan(id, t.angkatan[id])) else Err(NoRows)
  }

  // ---------------------------------------------------------------------
  // Writes

  /** Every row other than `id` is still there, unchanged. */
  predicate OthersUnchanged(before: map<string, MemberRow>, after: map<string, MemberRow>, id: string)
  {
    forall k :: k in before && k != id ==> k in after && after[k] == before[k]
  }

  /** The INSERT names every column but email, no_hp and password, which
      therefore start out NULL. A taken key is a driver error. */
  function AddMember(t: MemberTables, id: string, row: MemberRow): (r: Result<MemberTables, string>)
    ensures r.Ok? <==> id !in t.members
    ensures r.Ok? ==> r.value.members.Keys == t.members.Keys + {id}
    ensures r.Ok? ==> OthersUnchanged(t.members, r.value.members, id)
    ensures r.Ok? ==> r.value.angkatan == t.angkatan && r.value.jurusan == t.jurusan
    ensures r.Ok? ==> var s := r.value.members[id];
                      s.email == Null && s.noHp == Null && s.password == Null
                      && s.(email := row.email, noHp := row.noHp, password := row.password) == row
  {
    if id in t.members then Err(DuplicateKey)
    else Ok(t.(members := t.members[id := row.(email := Null, noHp := Null, password := Null)]))
  }

  /** Agreement on every column `UPDATE member SET ...` writes: all but the
      login token. */
  predicate SameUpdatedColumns(a: MemberRow, b: MemberRow)
  {
    && a.nra == b.nra && a.nama == b.nama && a.angkatanId == b.angkatanId
    && a.statusKeanggotaan == b.statusKeanggotaan && a.role == b.role
    && a.jurusanId == b.jurusanId && a.tanggalDikukuhkan == b.tanggalDikukuhkan
    && a.email == b.email && a.noHp == b.noHp && a.password == b.password && a.foto == b.foto
  }

  /** Overwrites eleven columns of row `id`, role included, and keeps its
      login token. No row matching is not an error. */
  function UpdateMember(t: MemberTables, id: string, row: MemberRow): (r: MemberTables)
    ensures r.members.Keys == t.members.Keys
    ensures r.angkatan == t.angkatan && r.jurusan == t.jurusan
    ensures OthersUnchanged(t.members, r.members, id)
    ensures id in t.members ==>
              SameUpdatedColumns(r.members[id], row) && r.members[id].loginToken == t.members[id].loginToken
    ensures id !in t.members ==> r == t
  {
    if id in t.members then
      var stored := t.members[id];
      t.(members := t.members[id := MemberRow(
        row.nra, row.nama, row.angkatanId, row.statusKeanggotaan, row.role, row.jurusanId,
        row.tanggalDikukuhkan, row.email, row.noHp, row.password, row.foto, stored.loginToken)])
    else
      t
  }

  /** `DELETE ... WHERE id_member = ?`. */
  function DeleteMember(t: MemberTables, id: string): (r: MemberTables)
    ensures r.members.Keys == t.members.Keys - {id}
    ensures OthersUnchanged(t.members, r.members, id)
    ensures r.angkatan == t.angkatan && r.jurusan == t.jurusan
  {
    t.(members := t.members - {id})
  }

  /** The token column holds NULL for "" and the token otherwise. */
  function UpdateMemberToken(t: MemberTables, id: string, token: string): (r: MemberTables)
    ensures r.members.Keys == t.members.Keys
    ensures r.angkatan == t.angkatan && r.jurusan == t.jurusan
    ensures OthersUnchanged(t.members, r.members, id)
    ensures id in t.members ==>
              && (r.members[id].loginToken.Valid? <==> token != "")
              && r.members[id].loginToken.String() == token
              && r.members[id].(loginToken := t.members[id].loginToken) == t.members[id]
    ensures id !in t.members ==> r == t
  {
    if id in t.members then
      var stored := if token == "" then Null else Valid(token);
      t.(members := t.members[id := t.members[id].(loginToken := stored)])
    else
      t
  }

  function UpdateMemberPassword(t: MemberTables, id: string, password: string): (r: MemberTables)
    ensures r.members.Keys == t.members.Keys
    ensures r.angkatan == t.angkatan && r.jurusan == t.jurusan
    ensures OthersUnchanged(t.members, r.members, id)
    ensures id in t.members ==>
              r.members[id].password == Valid(password)
              && r.members[id].(password := t.members[id].password) == t.members[id]
    ensures id !in t.members ==> r == t
  {
    if id in t.members then
      t.(members := t.members[id := t.members[id].(password := Valid(password))])
    else
      t
  }

  /** Writes e-mail, phone, name, photo and date of confirmation. */
  function UpdateMemberProfile(t: MemberTables, id: string, email: string, noHp: string, nama: string,
                               foto: string, tanggal: Option<CustomDate>): (r: MemberTables)
    ensures r.members.Keys == t.members.Keys
    ensures r.angkatan == t.angkatan && r.jurusan == t.jurusan
    ensures OthersUnchanged(t.members, r.members, id)
    ensures id in t.members ==>
              var s, o := r.members[id], t.members[id];
              s.email == Valid(email) && s.noHp == Valid(noHp) && s.nama == nama
              && s.foto == Valid(foto) && s.tanggalDikukuhkan == tanggal
              && s.(email := o.email, noHp := o.noHp, nama := o.nama, foto := o.foto,
                    tanggalDikukuhkan := o.tanggalDikukuhkan) == o
    ensures id !in t.members ==> r == t
  {
    if id in t.members then
      t.(members := t.members[id := t.members[id].(email := Valid(email), noHp := Valid(noHp), nama := nama,
                                                    foto := Valid(foto), tanggalDikukuhkan := tanggal)])
    else
      t
  }

  /** Inserts a cohort and hands it back; a taken id is a driver error. */
  function AddAngkatan(t: MemberTables, a: Angkatan): (r: Result<(MemberTables, Angkatan), string>)
    ensures r.Ok? <==> a.idAngkatan !in t.angkatan
    ensures r.Ok? ==> r.value.1 == a
    ensures r.Ok? ==> r.value.0.members == t.members && r.value.0.jurusan == t.jurusan
    ensures r.Ok? ==> r.value.0.angkatan.Keys == t.angkatan.Keys + {a.idAngkatan}
    ensures r.Ok? ==> forall k :: k in t.angkatan ==> r.value.0.angkatan[k] == t.angkatan[k]
  {
    if a.idAngkatan in t.angkatan then Err(DuplicateKey)
    else Ok((t.(angkatan := t.angkatan[a.idAngkatan := a.namaAngkatan]), a))
  }

  // ---------------------------------------------------------------------
  // Reads after writes

  /** A stored cohort reads back as it was added. */
  lemma AddAngkatanThenGet(t: MemberTables, a: Angkatan)
    requires a.idAngkatan !in t.angkatan
    ensures GetAngkatanById(t, a.idAngkatan).Err?
    ensures GetAngkatanById(AddAngkatan(t, a).value.0, a.idAngkatan) == Ok(a)
  {
  }

  /** Reading a member back after `UpdateMember` shows the written columns
      and the kept token, as long as the joins still find their rows. */
  lemma UpdateThenGet(t: MemberTables, id: string, row: MemberRow)
    requires id in t.members
    ensures var g := GetMemberById(UpdateMember(t, id, row), id);
            && (g.Ok? <==> Joinable(t, row))
            && (g.Ok? ==> SameUpdatedColumns(g.value.row, row) && g.value.row.loginToken == t.members[id].loginToken)
  {
  }

  /** After a delete the member is gone, and nothing else was removed. */
  lemma DeleteThenGet(t: MemberTables, id: string, other: string)
    requires other != id
    ensures GetMemberById(DeleteMember(t, id), id) == Err(NoRows)
    ensures GetMemberById(DeleteMember(t, id), other) == GetMemberById(t, other)
  {
  }

  /** Clearing a member's token leaves a lookup by that token nothing to
      find when no other member held it. */
  lemma ClearedTokenNotFound(t: MemberTables, id: string, token: string)
    requires id in t.members
    requires forall k :: k in t.members && k != id ==> t.members[k].loginToken != Valid(token)
    ensures GetMemberByToken(UpdateMemberToken(t, id, ""), token) == Err(NoRows)
  {
    var t' := UpdateMemberToken(t, id, "");
    assert !SomeToken(t', token) by {
      forall k | k in t'.members ensures t'.members[k].loginToken != Valid(token) {
        if k == id { assert t'.members[k].loginToken == Null; }
      }
    }
  }
}

=== FILE: member_service.dfy ===
/** `service/member_service.go`: form validation, member creation, the
    merge of a partial update onto the stored member, login by password or
    by one-time token, the profile, and the password.

    Multipart parsing, the photo files themselves, JWT signing and
    password hashing are outside the model: the uploaded file is its name
    (`Upload`), a login yields the claims the token would carry
    (`Claims`), and hashing and verification are parameters. Lookups by a
    secondary key (department name, NRA, login token) are ghost, so every
    operation that makes one takes its result as a parameter (the `...As`
    functions); the ghost wrappers at the end make the lookup on the
    tables the operation starts from, which is what the source does since
    nothing is written before it.
 */
module MemberService {
  import opened Outcomes
  import opened CustomDates
  import opened Model
  import opened Validators
  import opened FileNames
  import opened Choose
  import opened Converter
  import MR = MemberRepository

  /** The text fields of the admin member form. */
  datatype MemberForm = MemberForm(
    nra: string,
    nama: string,
    angkatan: string,
    statusKeanggotaan: string,
    jurusan: string,
    tanggalDikukuhkan: string)

  /** The fields of the profile-completion form. */
  datatype ProfileForm = ProfileForm(email: string, noHp: string, nama: string, tanggalDikukuhkan: string)

  /** The `foto` part of a multipart form: absent, or a file with its
      client-side name. */
  datatype Upload = NoFile | Uploaded(fileName: string)

  /** What a successful login puts into the signed token. */
  datatype Claims = Claims(nra: string, nama: string, statusKeanggotaan: string)

  // ---------------------------------------------------------------------
  // Form checks

  /** A form date is optional; when present it must be `DD-MM-YYYY`. */
  function ParseFormDate(s: string): (r: Result<Option<CustomDate>, string>)
    ensures s == "" ==> r == Ok(None)
    ensures s != "" ==> (r.Ok? <==> ParseDayMonthYear(s).Some?)
    ensures r.Ok? && s != "" ==> r.value.Some? && r.value.value.time == Midnight(ParseDayMonthYear(s).value)
  {
    if s == "" then Ok(None)
    else
      match ParseDayMonthYear(s)
      case None => Err(ParseFailure)
      case Some(d) => Ok(Some(CustomDate(Midnight(d))))
  }

  /** The message of the first field, in order, whose value is empty. */
  function FirstMissing(fields: seq<(string, string)>): (r: Option<string>)
    ensures r.None? <==> forall i :: 0 <= i < |fields| ==> fields[i].0 != ""
    ensures r.Some? ==> exists i :: 0 <= i < |fields| && fields[i].0 == "" && r.value == fields[i].1
                                    && forall j :: 0 <= j < i ==> fields[j].0 != ""
  {
    if fields == [] then None
    else if fields[0].0 == "" then Some(fields[0].1)
    else
      var rest := FirstMissing(fields[1..]);
      assert rest.Some? ==> exists i :: 1 <= i < |fields| && fields[i].0 == "" && rest.value == fields[i].1
                                        && forall j :: 0 <= j < i ==> fields[j].0 != "" by {
        if rest.Some? {
          var i :| 0 <= i < |fields[1..]| && fields[1..][i].0 == "" && rest.value == fields[1..][i].1
                   && forall j :: 0 <= j < i ==> fields[1..][j].0 != "";
          assert fields[i + 1] == fields[1..][i];
          forall j | 0 <= j < i + 1 ensures fields[j].0 != "" {
            if j > 0 { assert fields[j] == fields[1..][j - 1]; }
          }
        }
      }
      rest
  }

  /** The required fields of the member form, in the order they are
      checked, with the message for each. */
  function RequiredFields(form: MemberForm): seq<(string, string)>
  {
    [(form.nra, "field nra cannot be empty"),
     (form.nama, "field name cannot be empty"),
     (form.angkatan, "field generation cannot be empty"),
     (form.statusKeanggotaan, "field membership status cannot be empty"),
     (form.jurusan, "the major field cannot be empty")]
  }

  /** The checks `AddMember` makes before touching a file or the database:
      the date, then the required fields, then the NRA's format. All
      failures are 400. */
  function CheckMemberForm(form: MemberForm): (r: Result<Option<CustomDate>, Failure>)
    ensures r.Err? ==> r.error.status == BadRequest
    ensures r.Ok? <==> && ParseFormDate(form.tanggalDikukuhkan).Ok?
                       && form.nra != "" && form.nama != "" && form.angkatan != ""
                       && form.statusKeanggotaan != "" && form.jurusan != ""
                       && IsValidNRA(form.nra)
    ensures r.Ok? ==> r.value == ParseFormDate(form.tanggalDikukuhkan).value
    ensures ParseFormDate(form.tanggalDikukuhkan).Ok? && form.nra == "" ==>
              r == Err(BadRequestError("field nra cannot be empty"))
  {
    match ParseFormDate(form.tanggalDikukuhkan)
    case Err(e) => Err(BadRequestError("invalid date format, use DD-MM-YYYY: " + e))
    case Ok(tanggal) =>
      var fields := RequiredFields(form);
      match FirstMissing(fields)
      case Some(message) => Err(BadRequestError(message))
      case None =>
        assert fields[0].0 == form.nra && fields[1].0 == form.nama && fields[2].0 == form.angkatan;
        assert fields[3].0 == form.statusKeanggotaan && fields[4].0 == form.jurusan;
        if !IsValidNRA(form.nra) then Err(BadRequestError("invalid nra format"))
        else Ok(tanggal)
  }

  // ---------------------------------------------------------------------
  // Cohorts

  /** `fmt.Sprintf("Angkatan %s", id)`. */
  function CohortName(id: string): string
  {
    "Angkatan " + id
  }

  /** The cohort `id`, created under its default name when it does not yet
      exist. The error branches of the source cannot be reached: the
      lookup fails only for a missing cohort, and the insert only for an
      existing one. */
  function EnsureAngkatan(t: MemberTables, id: string): (r: (MemberTables, Angkatan))
    ensures r.1.idAngkatan == id && id in r.0.angkatan && r.0.angkatan[id] == r.1.namaAngkatan
    ensures r.0.members == t.members && r.0.jurusan == t.jurusan
    ensures id in t.angkatan ==> r.0 == t && r.1.namaAngkatan == t.angkatan[id]
    ensures id !in t.angkatan ==> r.1.namaAngkatan == CohortName(id) && r.0.angkatan == t.angkatan[id := CohortName(id)]
  {
    match MR.GetAngkatanById(t, id)
    case Ok(a) => (t, a)
    case Err(_) =>
      match MR.AddAngkatan(t, Angkatan(id, CohortName(id)))
      case Ok(added) => added
      case Err(_) => assert false; (t, Angkatan(id, CohortName(id)))
  }

  // ---------------------------------------------------------------------
  // AddMember

  /** The member `AddMember` creates, as a lookup of its id would return
      it, and the tables it leaves behind. The transaction is committed on
      every path (`defer tx.Commit()`), so a failed insert keeps a cohort
      created just before it. */
  function CreateMember(t: MemberTables, form: MemberForm, upload: Upload, jurusan: Result<Jurusan, string>,
                        id: string, token: string): (r: (MemberTables, Result<Member, Failure>))
    ensures CheckMemberForm(form).Err? ==> r == (t, Err(CheckMemberForm(form).error))
    ensures CheckMemberForm(form).Ok? && upload.NoFile? ==> r == (t, Err(BadRequestError("the file cannot be empty")))
    ensures CheckMemberForm(form).Ok? && upload.Uploaded? && jurusan.Err? ==>
              r.0 == t && r.1.Err? && r.1.error.status == InternalServerError
    ensures CheckMemberForm(form).Ok? && upload.Uploaded? && jurusan.Ok? && id in t.members ==>
              r == (EnsureAngkatan(t, form.angkatan).0, Err(InternalError("failed to add member: " + DuplicateKey)))
    ensures r.1.Ok? <==> CheckMemberForm(form).Ok? && upload.Uploaded? && jurusan.Ok? && id !in t.members
    ensures r.1.Ok? ==>
              var m := r.1.value;
              && m.idMember == id
              && m.row == MemberRow(Valid(form.nra), form.nama, form.angkatan, form.statusKeanggotaan, "",
                                    Valid(jurusan.value.idJurusan), CheckMemberForm(form).value,
                                    Null, Null, Null,
                                    Valid(PhotoFileName(form.nra, form.nama, Ext(upload.fileName))), Valid(token))
              && m.angkatan == EnsureAngkatan(t, form.angkatan).1 && m.jurusan == jurusan.value
              && r.0.angkatan == EnsureAngkatan(t, form.angkatan).0.angkatan && r.0.jurusan == t.jurusan
              && r.0.members == t.members[id := m.row]
    ensures r.1.Err? ==> r.0.members == t.members
  {
    match CheckMemberForm(form)
    case Err(f) => (t, Err(f))
    case Ok(tanggal) =>
      match upload
      case NoFile => (t, Err(BadRequestError("the file cannot be empty")))
      case Uploaded(fileName) =>
        var foto := PhotoFileName(form.nra, form.nama, Ext(fileName));
        match jurusan
        case Err(e) => (t, Err(InternalError("failed to get major: " + e)))
        case Ok(j) =>
          var (t1, cohort) := EnsureAngkatan(t, form.angkatan);
          var row := MemberRow(Valid(form.nra), form.nama, form.angkatan, form.statusKeanggotaan, "",
                               Valid(j.idJurusan), tanggal, Null, Null, Null, Valid(foto), Valid(token));
          match MR.AddMember(t1, id, row)
          case Err(e) => (t1, Err(InternalError("failed to add member: " + e)))
          case Ok(t2) => (t2, Ok(Member(id, row, cohort, j)))
  }

  /** `AddMember`, with the response naming the member's cohort and
      department, which is what the source sets out to do. */
  function AddMemberAs(t: MemberTables, form: MemberForm, upload: Upload, jurusan: Result<Jurusan, string>,
                       id: string, token: string): (r: (MemberTables, Result<MemberCreateResponse, Failure>))
    ensures r.0 == CreateMember(t, form, upload, jurusan, id, token).0
    ensures r.1.Ok? <==> CreateMember(t, form, upload, jurusan, id, token).1.Ok?
    ensures r.1.Ok? ==>
              var m := CreateMember(t, form, upload, jurusan, id, token).1.value;
              && r.1.value.idMember == id && r.1.value.loginToken == token && r.1.value.role == ""
              && r.1.value.nra == form.nra && r.1.value.nama == form.nama
              && r.1.value.foto == m.row.foto.value
              && r.1.value.angkatan == m.angkatan.namaAngkatan && r.1.value.jurusan == jurusan.value.namaJurusan
  {
    var (t2, created) := CreateMember(t, form, upload, jurusan, id, token);
    match created
    case Err(f) => (t2, Err(f))
    case Ok(m) => (t2, Ok(ToCreateResponse(m)))
  }

  /** `AddMember` as the source has it: the names are injected into the
      `AngkatanID`/`JurusanID` fields, which the converter does not read,
      so the response carries empty cohort and department names. */
  function AddMemberAsWritten(t: MemberTables, form: MemberForm, upload: Upload, jurusan: Result<Jurusan, string>,
                              id: string, token: string): (r: (MemberTables, Result<MemberCreateResponse, Failure>))
    ensures r.0 == AddMemberAs(t, form, upload, jurusan, id, token).0
    ensures r.1.Ok? <==> AddMemberAs(t, form, upload, jurusan, id, token).1.Ok?
    ensures r.1.Ok? ==> r.1.value == AddMemberAs(t, form, upload, jurusan, id, token).1.value.(angkatan := "", jurusan := "")
  {
    var (t2, created) := CreateMember(t, form, upload, jurusan, id, token);
    match created
    case Err(f) => (t2, Err(f))
    case Ok(m) => (t2, Ok(ToCreateResponse(m.(angkatan := NoAngkatan, jurusan := NoJurusan))))
  }

  // ---------------------------------------------------------------------
  // UpdateMember

  /** The photo an update ends up with: a new upload is named after the
      (possibly new) NRA and name with its own extension; without one, a
      stored photo is renamed the same way and keeps its extension; with
      neither there is no photo. */
  function UpdatedPhotoName(stored: MemberRow, nra: string, nama: string, upload: Upload): (name: string)
    ensures name == "" <==> upload.NoFile? && stored.foto.Null?
    ensures upload.Uploaded? && Ext(upload.fileName) != "" ==> Ext(name) == Ext(upload.fileName)
    ensures upload.NoFile? && stored.foto.Valid? && Ext(stored.foto.value) != "" ==> Ext(name) == Ext(stored.foto.value)
  {
    match upload
    case Uploaded(fileName) => RenamedPhoto(nra, nama, fileName)
    case NoFile => if stored.foto.Valid? then RenamedPhoto(nra, nama, stored.foto.value) else ""
  }

  /** A photo named after `nra` and `nama` with the extension of `source`. */
  function RenamedPhoto(nra: string, nama: string, source: string): (name: string)
    ensures name != ""
    ensures Ext(source) != "" ==> Ext(name) == Ext(source)
  {
    var name := PhotoFileName(nra, nama, Ext(source));
    assert Ext(source) != "" ==> Ext(name) == Ext(source) by {
      if Ext(source) != "" { PhotoNameKeepsExt(nra, nama, source); }
    }
    name
  }

  /** The stored row with the form's non-empty fields laid over it.
      E-mail, phone, password, login token and role stay as stored. */
  function MergeMember(stored: MemberRow, form: MemberForm, tanggal: Option<CustomDate>, jurusanId: string, foto: string)
    : (row: MemberRow)
    ensures row.nra == (if form.nra != "" then Valid(form.nra) else stored.nra)
    ensures row.nama == (if form.nama != "" then form.nama else stored.nama)
    ensures row.angkatanId == (if form.angkatan != "" then form.angkatan else stored.angkatanId)
    ensures row.statusKeanggotaan == (if form.statusKeanggotaan != "" then form.statusKeanggotaan else stored.statusKeanggotaan)
    ensures row.jurusanId == (if form.jurusan != "" then Valid(jurusanId) else stored.jurusanId)
    ensures row.tanggalDikukuhkan == (if tanggal.Some? then tanggal else stored.tanggalDikukuhkan)
    ensures row.foto == (if foto != "" then Valid(foto) else stored.foto)
    ensures row.(nra := stored.nra, nama := stored.nama, angkatanId := stored.angkatanId,
                 statusKeanggotaan := stored.statusKeanggotaan, jurusanId := stored.jurusanId,
                 tanggalDikukuhkan := stored.tanggalDikukuhkan, foto := stored.foto) == stored
  {
    stored.(
      nra := ChooseNullString(form.nra, stored.nra),
      nama := ChooseString(form.nama, stored.nama),
      angkatanId := ChooseString(form.angkatan, stored.angkatanId),
      statusKeanggotaan := ChooseString(form.statusKeanggotaan, stored.statusKeanggotaan),
      jurusanId := if form.jurusan != "" then Valid(jurusanId) else stored.jurusanId,
      tanggalDikukuhkan := if tanggal.Some? then tanggal else stored.tanggalDikukuhkan,
      foto := if foto != "" then Valid(foto) else stored.foto)
  }

  /** Everything `UpdateMember` does before its write: the date (a 500
      here, unlike the other forms), the stored member, the photo name,
      the NRA's format, the department and the cohort. The result is the
      tables (possibly with a new cohort) and the merged member with the
      cohort and department it now belongs to. */
  function PrepareUpdate(t: MemberTables, id: string, form: MemberForm, upload: Upload, jurusan: Result<Jurusan, string>)
    : (r: Result<(MemberTables, Member), Failure>)
    ensures ParseFormDate(form.tanggalDikukuhkan).Err? ==> r.Err? && r.error.status == InternalServerError
    ensures ParseFormDate(form.tanggalDikukuhkan).Ok? && MR.GetMemberById(t, id).Err? ==>
              r.Err? && r.error.status == InternalServerError
    ensures (ParseFormDate(form.tanggalDikukuhkan).Ok? && MR.GetMemberById(t, id).Ok?
             && form.nra != "" && !IsValidNRA(form.nra)) ==> r == Err(BadRequestError("invalid NRA format"))
    ensures r.Ok? <==> && ParseFormDate(form.tanggalDikukuhkan).Ok? && MR.GetMemberById(t, id).Ok?
                       && (form.nra == "" || IsValidNRA(form.nra))
                       && (form.jurusan == "" || jurusan.Ok?)
    ensures r.Ok? ==>
              var (t1, m) := r.value;
              var stored := MR.GetMemberById(t, id).value;
              && m.idMember == id
              && t1.members == t.members && t1.jurusan == t.jurusan
              && t1 == (if form.angkatan != "" then EnsureAngkatan(t, form.angkatan).0 else t)
              && m.row == MergeMember(stored.row, form, ParseFormDate(form.tanggalDikukuhkan).value,
                                      if form.jurusan != "" then jurusan.value.idJurusan else "",
                                      UpdatedPhotoName(stored.row, ChooseString(form.nra, stored.row.nra.String()),
                                                       ChooseString(form.nama, stored.row.nama), upload))
              && m.angkatan == (if form.angkatan != "" then EnsureAngkatan(t, form.angkatan).1 else stored.angkatan)
              && m.jurusan == (if form.jurusan != "" then jurusan.value else stored.jurusan)
  {
    match ParseFormDate(form.tanggalDikukuhkan)
    case Err(e) => Err(InternalError("failed to parse date: " + e))
    case Ok(tanggal) =>
      match MR.GetMemberById(t, id)
      case Err(e) => Err(InternalError("failed to get member: " + e))
      case Ok(stored) =>
        var fnNra := ChooseString(form.nra, stored.row.nra.String());
        var fnNama := ChooseString(form.nama, stored.row.nama);
        var foto := UpdatedPhotoName(stored.row, fnNra, fnNama, upload);
        if form.nra != "" && !IsValidNRA(form.nra) then Err(BadRequestError("invalid NRA format"))
        else if form.jurusan != "" && jurusan.Err? then Err(InternalError("failed to get jurusan: " + jurusan.error))
        else
          var j := if form.jurusan != "" then jurusan.value else stored.jurusan;
          var (t1, cohort) := if form.angkatan != "" then EnsureAngkatan(t, form.angkatan) else (t, stored.angkatan);
          var row := MergeMember(stored.row, form, tanggal, if form.jurusan != "" then j.idJurusan else "", foto);
          Ok((t1, Member(id, row, cohort, j)))
  }

  /** `UpdateMember`, with the stored role kept and the response naming the
      cohort and department, which is what the source sets out to do. */
  function UpdateMemberAs(t: MemberTables, id: string, form: MemberForm, upload: Upload, jurusan: Result<Jurusan, string>)
    : (r: Result<(MemberTables, MemberResponse), Failure>)
    ensures r.Ok? <==> PrepareUpdate(t, id, form, upload, jurusan).Ok?
    ensures r.Err? ==> r.error == PrepareUpdate(t, id, form, upload, jurusan).error
    ensures r.Ok? ==>
              var (t1, m) := PrepareUpdate(t, id, form, upload, jurusan).value;
              && r.value.0 == MR.UpdateMember(t1, id, m.row)
              && r.value.0.members[id].role == t.members[id].role
              && r.value.1 == ToMemberResponse(m)
  {
    match PrepareUpdate(t, id, form, upload, jurusan)
    case Err(f) => Err(f)
    case Ok((t1, m)) => Ok((MR.UpdateMember(t1, id, m.row), ToMemberResponse(m)))
  }

  /** `UpdateMember` as the source has it: the record written back is built
      without a role, so the update stores "" as the member's role; and the
      names are injected where the converter does not read them, so the
      response carries empty cohort and department names. */
  function UpdateMemberAsWritten(t: MemberTables, id: string, form: MemberForm, upload: Upload, jurusan: Result<Jurusan, string>)
    : (r: Result<(MemberTables, MemberResponse), Failure>)
    ensures r.Ok? <==> PrepareUpdate(t, id, form, upload, jurusan).Ok?
    ensures r.Err? ==> r.error == PrepareUpdate(t, id, form, upload, jurusan).error
    ensures r.Ok? ==>
              var (t1, m) := PrepareUpdate(t, id, form, upload, jurusan).value;
              && r.value.0 == MR.UpdateMember(t1, id, m.row.(role := ""))
              && r.value.1 == ToMemberResponse(m).(angkatan := "", jurusan := "")
  {
    match PrepareUpdate(t, id, form, upload, jurusan)
    case Err(f) => Err(f)
    case Ok((t1, m)) =>
      var row := m.row.(role := "");
      Ok((MR.UpdateMember(t1, id, row), ToMemberResponse(Member(id, row, NoAngkatan, NoJurusan))))
  }

  // ---------------------------------------------------------------------
  // Reads and deletes by id

  function GetMemberById(t: MemberTables, id: string): (r: Result<MemberResponse, Failure>)
    ensures r.Ok? <==> MR.GetMemberById(t, id).Ok?
    ensures r.Ok? ==> r.value == ToMemberResponse(MR.GetMemberById(t, id).value) && r.value.idMember == id
    ensures r.Err? ==> r.error.status == InternalServerError
  {
    match MR.GetMemberById(t, id)
    case Err(e) => Err(InternalError("failed to to get member: " + e))
    case Ok(m) => Ok(ToMemberResponse(m))
  }

  /** Deleting needs a member the lookup can read, joins included. */
  function DeleteMember(t: MemberTables, id: string): (r: Result<MemberTables, Failure>)
    ensures r.Ok? <==> MR.GetMemberById(t, id).Ok?
    ensures r.Ok? ==> r.value.members.Keys == t.members.Keys - {id}
                      && MR.OthersUnchanged(t.members, r.value.members, id)
    ensures r.Err? ==> r.error.status == InternalServerError
  {
    match MR.GetMemberById(t, id)
    case Err(e) => Err(InternalError("failed to get member: " + e))
    case Ok(m) => Ok(MR.DeleteMember(t, m.idMember))
  }

  // ---------------------------------------------------------------------
  // Login

  /** Login by NRA and password. Nothing is written. The claims name the
      NRA as it was typed. */
  function LoginAs(member: Result<Member, string>, nra: string, password: string, verify: (string, string) -> bool)
    : (r: Result<Claims, Failure>)
    ensures nra == "" || password == "" ==> r.Err? && r.error.status == BadRequest
    ensures nra != "" && password != "" && member.Err? ==> r.Err? && r.error.status == InternalServerError
    ensures r.Ok? <==> nra != "" && password != "" && member.Ok? && verify(member.value.row.password.String(), password)
    ensures nra != "" && password != "" && member.Ok? && !verify(member.value.row.password.String(), password) ==>
              r.Err? && r.error.status == BadRequest
    ensures r.Ok? ==> r.value == Claims(nra, member.value.row.nama, member.value.row.statusKeanggotaan)
  {
    if nra == "" then Err(BadRequestError("field nra cannot be empty"))
    else if password == "" then Err(BadRequestError("field password cannot be empty"))
    else
      match member
      case Err(e) => Err(InternalError("failed to get member: " + e))
      case Ok(m) =>
        // The source formats the (nil) lookup error into this message.
        if !verify(m.row.password.String(), password) then Err(BadRequestError("invalid nra or password: <nil>"))
        else Ok(Claims(nra, m.row.nama, m.row.statusKeanggotaan))
  }

  /** Login by the one-time token handed out at creation: the token is
      cleared as part of the login. The claims name the stored NRA. */
  function LoginTokenAs(t: MemberTables, token: string, member: Result<Member, string>)
    : (r: Result<(MemberTables, Claims), Failure>)
    ensures token == "" ==> r.Err? && r.error.status == BadRequest
    ensures token != "" && member.Err? ==> r.Err? && r.error.status == InternalServerError
    ensures r.Ok? <==> token != "" && member.Ok?
    ensures r.Ok? ==> var m := member.value;
                      r.value == (MR.UpdateMemberToken(t, m.idMember, ""),
                                  Claims(m.row.nra.String(), m.row.nama, m.row.statusKeanggotaan))
  {
    if token == "" then Err(BadRequestError("field token cannot be empty"))
    else
      match member
      case Err(e) => Err(InternalError("failed to get member: " + e))
      case Ok(m) =>
        Ok((MR.UpdateMemberToken(t, m.idMember, ""), Claims(m.row.nra.String(), m.row.nama, m.row.statusKeanggotaan)))
  }

  // ---------------------------------------------------------------------
  // The member behind a bearer token

  function GetProfileAs(member: Result<Member, string>): (r: Result<ProfileResponse, Failure>)
    ensures r.Ok? <==> member.Ok?
    ensures r.Ok? ==> r.value == ToProfileResponse(member.value)
    ensures r.Err? ==> r.error.status == InternalServerError
  {
    match member
    case Err(e) => Err(InternalError("failed to get member profile: " + e))
    case Ok(m) => Ok(ToProfileResponse(m))
  }

  /** The new password is stored as its hash, `hashed`. */
  function SetPasswordAs(t: MemberTables, member: Result<Member, string>, password: string, hashed: string)
    : (r: Result<MemberTables, Failure>)
    ensures password == "" ==> r == Err(BadRequestError("password is required"))
    ensures r.Ok? <==> password != "" && member.Ok?
    ensures r.Ok? ==> r.value == MR.UpdateMemberPassword(t, member.value.idMember, hashed)
    ensures r.Err? && password != "" ==> r.error.status == InternalServerError
  {
    if password == "" then Err(BadRequestError("password is required"))
    else
      match member
      case Err(e) => Err(InternalError("failed to get member: " + e))
      case Ok(m) => Ok(MR.UpdateMemberPassword(t, m.idMember, hashed))
  }

  /** The checks of `CompleteProfile`, in order; all failures are 400. The
      photo is named after the token's NRA and the name with its spaces
      replaced. */
  function CheckProfileForm(nra: string, form: ProfileForm, upload: Upload): (r: Result<(CustomDate, string), Failure>)
    ensures r.Err? ==> r.error.status == BadRequest
    ensures r.Ok? <==> && ParseFormDate(form.tanggalDikukuhkan).Ok? && form.email != "" && form.noHp != ""
                       && form.tanggalDikukuhkan != "" && form.nama != "" && upload.Uploaded?
    ensures r.Ok? ==> Some(r.value.0) == ParseFormDate(form.tanggalDikukuhkan).value
                      && r.value.1 == PhotoFileName(nra, ReplaceSpaces(form.nama), Ext(upload.fileName))
  {
    match ParseFormDate(form.tanggalDikukuhkan)
    case Err(e) => Err(BadRequestError("invalid date format, use dd-mm-yyyy: " + e))
    case Ok(tanggal) =>
      if form.email == "" || form.noHp == "" then Err(BadRequestError("email and nomor_hp are required"))
      else if tanggal.None? then Err(BadRequestError("tanggal_dikukuhkan is required"))
      else if form.nama == "" then Err(BadRequestError("nama is required"))
      else
        match upload
        case NoFile => Err(BadRequestError("foto file is required"))
        case Uploaded(fileName) => Ok((tanggal.value, PhotoFileName(nra, ReplaceSpaces(form.nama), Ext(fileName))))
  }

  /** Writes the profile fields, then reads the member back. */
  function CompleteProfileAs(t: MemberTables, nra: string, form: ProfileForm, upload: Upload, member: Result<Member, string>)
    : (r: Result<(MemberTables, MemberResponse), Failure>)
    ensures CheckProfileForm(nra, form, upload).Err? ==> r == Err(CheckProfileForm(nra, form, upload).error)
    ensures CheckProfileForm(nra, form, upload).Ok? && member.Err? ==> r.Err? && r.error.status == InternalServerError
    ensures r.Ok? ==>
              && CheckProfileForm(nra, form, upload).Ok? && member.Ok?
              && var (tanggal, foto) := CheckProfileForm(nra, form, upload).value;
                 var t2 := MR.UpdateMemberProfile(t, member.value.idMember, form.email, form.noHp, form.nama, foto, Some(tanggal));
                 && r.value.0 == t2
                 && MR.GetMemberById(t2, member.value.idMember).Ok?
                 && r.value.1 == ToMemberResponse(MR.GetMemberById(t2, member.value.idMember).value)
    ensures member.Ok? && MR.Stored(t, member.value) ==> (r.Ok? <==> CheckProfileForm(nra, form, upload).Ok?)
  {
    match CheckProfileForm(nra, form, upload)
    case Err(f) => Err(f)
    case Ok((tanggal, foto)) =>
      match member
      case Err(e) => Err(InternalError("failed to get member: " + e))
      case Ok(m) =>
        var t2 := MR.UpdateMemberProfile(t, m.idMember, form.email, form.noHp, form.nama, foto, Some(tanggal));
        match MR.GetMemberById(t2, m.idMember)
        case Err(e) => Err(InternalError("failed to get updated member: " + e))
        case Ok(updated) => Ok((t2, ToMemberResponse(updated)))
  }

  // ---------------------------------------------------------------------
  // The operations with their lookups made on the starting tables

  ghost function AddMember(t: MemberTables, form: MemberForm, upload: Upload, id: string, token: string)
    : (r: (MemberTables, Result<MemberCreateResponse, Failure>))
  {
    AddMemberAs(t, form, upload, MR.GetJurusanByName(t, form.jurusan), id, token)
  }

  ghost function UpdateMember(t: MemberTables, id: string, form: MemberForm, upload: Upload)
    : (r: Result<(MemberTables, MemberResponse), Failure>)
  {
    UpdateMemberAs(t, id, form, upload, MR.GetJurusanByName(t, form.jurusan))
  }

  ghost function Login(t: MemberTables, nra: string, password: string, verify: (string, string) -> bool)
    : (r: Result<Claims, Failure>)
  {
    LoginAs(MR.GetMemberByNRA(t, nra), nra, password, verify)
  }

  ghost function LoginToken(t: MemberTables, token: string): (r: Result<(MemberTables, Claims), Failure>)
  {
    LoginTokenAs(t, token, MR.GetMemberByToken(t, token))
  }

  ghost function GetProfile(t: MemberTables, nra: string): (r: Result<ProfileResponse, Failure>)
  {
    GetProfileAs(MR.GetMemberByNRA(t, nra))
  }

  ghost function SetPassword(t: MemberTables, nra: string, password: string, hashed: string): (r: Result<MemberTables, Failure>)
  {
    SetPasswordAs(t, MR.GetMemberByNRA(t, nra), password, hashed)
  }

  ghost function CompleteProfile(t: MemberTables, nra: string, form: ProfileForm, upload: Upload)
    : (r: Result<(MemberTables, MemberResponse), Failure>)
  {
    CompleteProfileAs(t, nra, form, upload, MR.GetMemberByNRA(t, nra))
  }
}

=== FILE: model.dfy ===
/** The records the repositories store and return (`model/member.go`,
    `model/notification.go`), with each table a map from its primary key to
    the rest of the row.

    The tree's `model.Member` has no role field although the repository and
    the services read and write a `role` column; the model follows the
    repository and gives the member row a `role`. Likewise the request
    record uses `from_role` / `to_role` as the repository does.
 */
module Model {
  import opened Outcomes
  import opened CustomDates

  /** `sql.NullString` as read from a column: NULL or a text. */
  datatype NullString = Null | Valid(value: string) {
    /** The `.String` field: the text, or "" for NULL. */
    function String(): (s: string)
      ensures Valid? ==> s == value
      ensures Null? ==> s == ""
    {
      if Valid? then value else ""
    }
  }

  /** An instant, for the notification and request timestamps. */
  type Timestamp = int

  /** The columns of the `member` table other than its key `id_member`. */
  datatype MemberRow = MemberRow(
    nra: NullString,
    nama: string,
    angkatanId: string,
    statusKeanggotaan: string,
    role: string,
    jurusanId: NullString,
    tanggalDikukuhkan: Option<CustomDate>,
    email: NullString,
    noHp: NullString,
    password: NullString,
    foto: NullString,
    loginToken: NullString)

  datatype Angkatan = Angkatan(idAngkatan: string, namaAngkatan: string)

  datatype Jurusan = Jurusan(idJurusan: string, namaJurusan: string)

  /** `model.Member` as the repository returns it: the row, its key, and the
      cohort and department rows joined to it. A member the services build
      themselves carries empty joined records, as Go's zero values do. */
  datatype Member = Member(idMember: string, row: MemberRow, angkatan: Angkatan, jurusan: Jurusan)

  const NoAngkatan: Angkatan := Angkatan("", "")
  const NoJurusan: Jurusan := Jurusan("", "")

  /** The `member`, `angkatan` (cohort) and `jurusan` (department) tables. */
  datatype MemberTables = MemberTables(
    members: map<string, MemberRow>,
    angkatan: map<string, string>,
    jurusan: map<string, string>)

  /** The payload a status-change notification carries. */
  datatype Metadata = Metadata(requestId: string, fromRole: string, toRole: string)

  /** The `metadata` column's text: JSON that decodes, or text that does not. */
  datatype MetadataText = Structured(meta: Metadata) | Malformed(text: string)

  /** The columns of the `notifications` table other than `id_notification`. */
  datatype NotificationRow = NotificationRow(
    targetMemberId: string,
    fromMemberId: string,
    notificationType: string,
    title: string,
    message: string,
    metadata: Option<MetadataText>,
    readAt: Option<Timestamp>,
    pending: bool,
    accepted: Option<bool>,
    createdAt: Timestamp,
    updatedAt: Timestamp)

  /** The columns of `status_change_requests` other than `id_request`. */
  datatype RequestRow = RequestRow(
    notificationId: string,
    targetMemberId: string,
    requestedByMemberId: string,
    fromRole: string,
    toRole: string,
    status: string,
    processedAt: Option<Timestamp>,
    createdAt: Timestamp)

  /** `model.NotificationWithMember`: a notification joined with the name,
      NRA and role of the member who sent it. */
  datatype NotificationWithMember = NotificationWithMember(
    id: string,
    row: NotificationRow,
    fromMemberName: string,
    fromMemberNra: string,
    fromMemberRole: string)

  datatype NotificationTables = NotificationTables(
    notifications: map<string, NotificationRow>,
    requests: map<string, RequestRow>)

  /** The whole database the services work on. */
  datatype Db = Db(memberTables: MemberTables, notificationTables: NotificationTables)

  // Driver error texts.
  const NoRows: string := "sql: no rows in result set"
  const NullScan: string := "sql: Scan error: converting NULL to string is unsupported"
  const DuplicateKey: string := "Error 1062: Duplicate entry for key 'PRIMARY'"

  // Values the workflow writes and compares.
  const BoardRole: string := "bph"
  const StatusPending: string := "pending"
  const StatusAccepted: string := "accepted"
  const StatusRejected: string := "rejected"
  const StatusChangeType: string := "status_change_request"
}

=== FILE: notification_repository.dfy ===
/** `repository/notification_repository.go`: the `notifications` and
    `status_change_requests` tables as maps keyed by id. `now` stands for
    the database's `NOW()` and Go's `time.Now()`, which the model treats as
    the same instant.
 */
module NotificationRepository {
  import opened Outcomes
  import opened Model

  // ---------------------------------------------------------------------
  // Notifications

  /** Every row other than `id` is still there, unchanged. */
  predicate OtherNotificationsUnchanged(before: map<string, NotificationRow>, after: map<string, NotificationRow>, id: string)
  {
    forall k :: k in before && k != id ==> k in after && after[k] == before[k]
  }

  /** The INSERT leaves `read_at` and `accepted` out, so a new notification
      is unread and undecided whatever the caller's record says; both
      timestamps are `now`. The record handed back carries `now` too. */
  function CreateNotification(t: NotificationTables, id: string, n: NotificationRow, now: Timestamp)
    : (r: Result<(NotificationTables, NotificationRow), string>)
    ensures r.Ok? <==> id !in t.notifications
    ensures r.Ok? ==> r.value.0.requests == t.requests
    ensures r.Ok? ==> r.value.0.notifications.Keys == t.notifications.Keys + {id}
    ensures r.Ok? ==> OtherNotificationsUnchanged(t.notifications, r.value.0.notifications, id)
    ensures r.Ok? ==> var s := r.value.0.notifications[id];
                      s.readAt.None? && s.accepted.None? && s.createdAt == now && s.updatedAt == now
                      && s.(readAt := n.readAt, accepted := n.accepted, createdAt := n.createdAt, updatedAt := n.updatedAt) == n
    ensures r.Ok? ==> r.value.1.createdAt == now && r.value.1.updatedAt == now
                      && r.value.1.(createdAt := n.createdAt, updatedAt := n.updatedAt) == n
  {
    if id in t.notifications then
      Err("failed to create notification: " + DuplicateKey)
    else
      var stored := NotificationRow(n.targetMemberId, n.fromMemberId, n.notificationType, n.title, n.message,
                                    n.metadata, None, n.pending, None, now, now);
      Ok((t.(notifications := t.notifications[id := stored]), n.(createdAt := now, updatedAt := now)))
  }

  function GetNotificationById(t: NotificationTables, id: string): (r: Result<NotificationRow, string>)
    ensures r.Ok? <==> id in t.notifications
    ensures r.Ok? ==> r.value == t.notifications[id]
  {
    if id in t.notifications then Ok(t.notifications[id])
    else Err("failed to get notification: " + NoRows)
  }

  const NotOwned: string := "notification not found or not owned by member"

  /** The UPDATE would write nothing new: `read_at` and `updated_at`
      already hold `now`, as after a mark or a decision in the same second. */
  predicate StampedAt(n: NotificationRow, now: Timestamp)
  {
    n.readAt == Some(now) && n.updatedAt == now
  }

  /** Sets `read_at` and `updated_at` on the one row whose id and target
      both match, and fails when no row is affected. The MySQL driver counts
      changed rows, not matched ones (the DSN in `config/connection.go` sets
      no `clientFoundRows`), so a row already stamped with `now` is not
      affected either and the call fails with the same message. */
  function MarkNotificationAsRead(t: NotificationTables, id: string, memberId: string, now: Timestamp)
    : (r: Result<NotificationTables, string>)
    ensures r.Ok? <==> id in t.notifications && t.notifications[id].targetMemberId == memberId
                       && !StampedAt(t.notifications[id], now)
    ensures r.Err? ==> r.error == NotOwned
    ensures r.Ok? ==> r.value.requests == t.requests
    ensures r.Ok? ==> r.value.notifications.Keys == t.notifications.Keys
    ensures r.Ok? ==> OtherNotificationsUnchanged(t.notifications, r.value.notifications, id)
    ensures r.Ok? ==> var s, o := r.value.notifications[id], t.notifications[id];
                      s.readAt == Some(now) && s.updatedAt == now
                      && s.pending == o.pending && s.accepted == o.accepted
                      && s.(readAt := o.readAt, updatedAt := o.updatedAt) == o
  {
    if id in t.notifications && t.notifications[id].targetMemberId == memberId
       && !StampedAt(t.notifications[id], now) then
      Ok(t.(notifications := t.notifications[id := t.notifications[id].(readAt := Some(now), updatedAt := now)]))
    else
      Err(NotOwned)
  }

  /** The ids of the member's notifications that have no `read_at`. */
  function UnreadIds(t: NotificationTables, memberId: string): (ids: set<string>)
    ensures ids <= t.notifications.Keys
    ensures forall id :: id in ids <==> id in t.notifications && t.notifications[id].targetMemberId == memberId
                                        && t.notifications[id].readAt.None?
  {
    set id | id in t.notifications && t.notifications[id].targetMemberId == memberId
                                   && t.notifications[id].readAt.None?
  }

  /** `SELECT COUNT(*) ... WHERE target_member_id = ? AND read_at IS NULL`. */
  function GetUnreadNotificationCount(t: NotificationTables, memberId: string): (count: nat)
    ensures count <= |t.notifications|
  {
    SubsetCard(UnreadIds(t, memberId), t.notifications.Keys);
    |UnreadIds(t, memberId)|
  }

  lemma SubsetCard<T>(a: set<T>, b: set<T>)
    requires a <= b
    ensures |a| <= |b|
  {
    assert b == a + (b - a);
  }

  // ---------------------------------------------------------------------
  // The listing

  /** `r` lists distinct ids. */
  predicate Distinct(r: seq<string>)
  {
    forall i, j :: 0 <= i < j < |r| ==> r[i] != r[j]
  }

  /** Newest first by `created_at`. */
  predicate NewestFirstOrder(rows: map<string, NotificationRow>, r: seq<string>)
    requires forall i :: 0 <= i < |r| ==> r[i] in rows
  {
    forall i, j :: 0 <= i < j < |r| ==> rows[r[i]].createdAt >= rows[r[j]].createdAt
  }

  lemma {:induction false} NewestExists(rows: map<string, NotificationRow>, ids: set<string>)
    requires ids != {} && ids <= rows.Keys
    ensures exists top :: top in ids && forall x :: x in ids ==> rows[x].createdAt <= rows[top].createdAt
  {
    var y :| y in ids;
    if ids != {y} {
      NewestExists(rows, ids - {y});
      var top :| top in ids - {y} && forall x :: x in ids - {y} ==> rows[x].createdAt <= rows[top].createdAt;
      if rows[y].createdAt > rows[top].createdAt {
        assert forall x :: x in ids ==> rows[x].createdAt <= rows[y].createdAt;
      } else {
        assert forall x :: x in ids ==> rows[x].createdAt <= rows[top].createdAt;
      }
    } else {
      assert forall x :: x in ids ==> x == y;
    }
  }

  /** `ORDER BY created_at DESC` over the given ids: each id once, newest
      first. Rows created at the same instant come in an order left open. */
  ghost function NewestFirst(rows: map<string, NotificationRow>, ids: set<string>): (r: seq<string>)
    requires ids <= rows.Keys
    ensures |r| == |ids| && Distinct(r)
    ensures forall i :: 0 <= i < |r| ==> r[i] in ids
    ensures forall x :: x in ids ==> x in r
    ensures NewestFirstOrder(rows, r)
    decreases |ids|
  {
    if ids == {} then []
    else
      NewestExists(rows, ids);
      var top :| top in ids && forall x :: x in ids ==> rows[x].createdAt <= rows[top].createdAt;
      var rest := NewestFirst(rows, ids - {top});
      PrependNewest(rows, ids, top, rest);
      [top] + rest
  }

  /** The listing is its first id followed by the listing of the rest. */
  lemma NewestFirstStep(rows: map<string, NotificationRow>, ids: set<string>)
    requires ids <= rows.Keys && ids != {}
    ensures var r := NewestFirst(rows, ids);
            r[0] in ids && r[1..] == NewestFirst(rows, ids - {r[0]})
  {
  }

  /** Putting the newest id in front of a newest-first listing of the
      others gives a newest-first listing of all of them. */
  lemma PrependNewest(rows: map<string, NotificationRow>, ids: set<string>, top: string, rest: seq<string>)
    requires ids <= rows.Keys && top in ids
    requires forall x :: x in ids ==> rows[x].createdAt <= rows[top].createdAt
    requires |rest| == |ids - {top}| && Distinct(rest)
    requires forall i :: 0 <= i < |rest| ==> rest[i] in ids - {top}
    requires forall x :: x in ids - {top} ==> x in rest
    requires NewestFirstOrder(rows, rest)
    ensures var r := [top] + rest;
            && |r| == |ids| && Distinct(r)
            && (forall i :: 0 <= i < |r| ==> r[i] in ids)
            && (forall x :: x in ids ==> x in r)
            && NewestFirstOrder(rows, r)
  {
    var r := [top] + rest;
    assert forall i :: 1 <= i < |r| ==> r[i] == rest[i - 1];
    forall i, j | 0 <= i < j < |r| ensures r[i] != r[j] && rows[r[i]].createdAt >= rows[r[j]].createdAt {
      if i > 0 {
        assert r[i] == rest[i - 1] && r[j] == rest[j - 1];
      } else {
        assert r[j] == rest[j - 1] && r[j] in ids - {top};
      }
    }
  }

  /** The ids of the notifications addressed to the member. */
  function TargetedIds(t: NotificationTables, memberId: string): (ids: set<string>)
    ensures ids <= t.notifications.Keys
    ensures forall id :: id in ids <==> id in t.notifications && t.notifications[id].targetMemberId == memberId
  {
    set id | id in t.notifications && t.notifications[id].targetMemberId == memberId
  }

  /** The sender columns of one listing row: the LEFT JOIN on the sender
      scans `m.nama`, `m.nra` and `m.role` into plain strings, so a missing
      sender or a sender without an NRA makes the scan fail. */
  function JoinSender(members: map<string, MemberRow>, id: string, n: NotificationRow): (r: Result<NotificationWithMember, string>)
    ensures r.Ok? <==> n.fromMemberId in members && members[n.fromMemberId].nra.Valid?
    ensures r.Ok? ==> r.value.id == id && r.value.row == n
                      && r.value.fromMemberName == members[n.fromMemberId].nama
                      && Valid(r.value.fromMemberNra) == members[n.fromMemberId].nra
                      && r.value.fromMemberRole == members[n.fromMemberId].role
  {
    if n.fromMemberId in members && members[n.fromMemberId].nra.Valid? then
      var sender := members[n.fromMemberId];
      Ok(NotificationWithMember(id, n, sender.nama, sender.nra.value, sender.role))
    else
      Err("failed to scan notification: " + NullScan)
  }

  /** Joins the senders along `ids`, stopping at the first row that fails. */
  function JoinAll(t: NotificationTables, members: map<string, MemberRow>, ids: seq<string>)
    : (r: Result<seq<NotificationWithMember>, string>)
    requires forall i :: 0 <= i < |ids| ==> ids[i] in t.notifications
    ensures r.Ok? <==> forall i :: 0 <= i < |ids| ==> JoinSender(members, ids[i], t.notifications[ids[i]]).Ok?
    ensures r.Ok? ==> |r.value| == |ids|
    ensures r.Ok? ==> forall i :: 0 <= i < |ids| ==>
                        r.value[i] == JoinSender(members, ids[i], t.notifications[ids[i]]).value
                        && r.value[i].id == ids[i] && r.value[i].row == t.notifications[ids[i]]
  {
    if ids == [] then Ok([])
    else
      match JoinSender(members, ids[0], t.notifications[ids[0]])
      case Err(e) => Err(e)
      case Ok(first) =>
        match JoinAll(t, members, ids[1..])
        case Err(e) => Err(e)
        case Ok(rest) => Ok([first] + rest)
  }

  /** The member's notifications, newest first, each joined with its
      sender: every notification addressed to the member exactly once and
      nothing else. */
  ghost function GetNotificationsByMemberId(t: NotificationTables, members: map<string, MemberRow>, memberId: string)
    : (r: Result<seq<NotificationWithMember>, string>)
    ensures r.Ok? <==> forall id :: id in TargetedIds(t, memberId) ==> JoinSender(members, id, t.notifications[id]).Ok?
    ensures r.Ok? ==> Listing(t, memberId, r.value)
  {
    var ids := NewestFirst(t.notifications, TargetedIds(t, memberId));
    ListingFacts(t, members, memberId, ids);
    JoinAll(t, members, ids)
  }

  /** `rows` lists each notification addressed to the member once, as
      stored, newest first. */
  ghost predicate Listing(t: NotificationTables, memberId: string, rows: seq<NotificationWithMember>)
  {
    && (forall i, j :: 0 <= i < j < |rows| ==> rows[i].id != rows[j].id)
    && (forall i :: 0 <= i < |rows| ==>
          rows[i].id in t.notifications && rows[i].row == t.notifications[rows[i].id]
          && rows[i].row.targetMemberId == memberId)
    && (forall id :: id in t.notifications && t.notifications[id].targetMemberId == memberId ==>
          exists i :: 0 <= i < |rows| && rows[i].id == id)
    && (forall i, j :: 0 <= i < j < |rows| ==> rows[i].row.createdAt >= rows[j].row.createdAt)
  }

  lemma ListingFacts(t: NotificationTables, members: map<string, MemberRow>, memberId: string, ids: seq<string>)
    requires ids == NewestFirst(t.notifications, TargetedIds(t, memberId))
    ensures JoinAll(t, members, ids).Ok? <==>
              forall id :: id in TargetedIds(t, memberId) ==> JoinSender(members, id, t.notifications[id]).Ok?
    ensures JoinAll(t, members, ids).Ok? ==> Listing(t, memberId, JoinAll(t, members, ids).value)
  {
    var targeted := TargetedIds(t, memberId);
    var r := JoinAll(t, members, ids);
    if r.Ok? {
      forall id | id in targeted ensures JoinSender(members, id, t.notifications[id]).Ok? {
        assert id in ids;
        var i :| 0 <= i < |ids| && ids[i] == id;
      }
      ListingOfJoined(t, members, memberId, ids, r.value);
    } else {
      var i :| 0 <= i < |ids| && JoinSender(members, ids[i], t.notifications[ids[i]]).Err?;
      assert ids[i] in TargetedIds(t, memberId);
    }
  }

  lemma ListingOfJoined(t: NotificationTables, members: map<string, MemberRow>, memberId: string,
                        ids: seq<string>, rows: seq<NotificationWithMember>)
    requires |ids| == |TargetedIds(t, memberId)| && Distinct(ids)
    requires forall i :: 0 <= i < |ids| ==> ids[i] in TargetedIds(t, memberId)
    requires forall x :: x in TargetedIds(t, memberId) ==> x in ids
    requires NewestFirstOrder(t.notifications, ids)
    requires |rows| == |ids|
    requires forall i :: 0 <= i < |ids| ==> rows[i].id == ids[i] && rows[i].row == t.notifications[ids[i]]
    ensures Listing(t, memberId, rows)
  {
    forall id | id in t.notifications && t.notifications[id].targetMemberId == memberId
      ensures exists i :: 0 <= i < |rows| && rows[i].id == id
    {
      assert id in TargetedIds(t, memberId);
      var i :| 0 <= i < |ids| && ids[i] == id;
      assert rows[i].id == id;
    }
    forall i, j | 0 <= i < j < |rows|
      ensures rows[i].id != rows[j].id && rows[i].row.createdAt >= rows[j].row.createdAt
    {
      assert rows[i].row == t.notifications[ids[i]] && rows[j].row == t.notifications[ids[j]];
    }
  }

  // ---------------------------------------------------------------------
  // Status-change requests

  predicate OtherRequestsUnchanged(before: map<string, RequestRow>, after: map<string, RequestRow>, id: string)
  {
    forall k :: k in before && k != id ==> k in after && after[k] == before[k]
  }

  /** The INSERT leaves `processed_at` out and stamps `created_at`. */
  function CreateStatusChangeRequest(t: NotificationTables, id: string, q: RequestRow, now: Timestamp)
    : (r: Result<(NotificationTables, RequestRow), string>)
    ensures r.Ok? <==> id !in t.requests
    ensures r.Ok? ==> r.value.0.notifications == t.notifications
    ensures r.Ok? ==> r.value.0.requests.Keys == t.requests.Keys + {id}
    ensures r.Ok? ==> OtherRequestsUnchanged(t.requests, r.value.0.requests, id)
    ensures r.Ok? ==> var s := r.value.0.requests[id];
                      s.processedAt.None? && s.createdAt == now
                      && s.(processedAt := q.processedAt, createdAt := q.createdAt) == q
    ensures r.Ok? ==> r.value.1.createdAt == now && r.value.1.(createdAt := q.createdAt) == q
  {
    if id in t.requests then
      Err("failed to create status change request: " + DuplicateKey)
    else
      var stored := RequestRow(q.notificationId, q.targetMemberId, q.requestedByMemberId, q.fromRole, q.toRole,
                               q.status, None, now);
      Ok((t.(requests := t.requests[id := stored]), q.(createdAt := now)))
  }

  function GetStatusChangeRequestById(t: NotificationTables, id: string): (r: Result<RequestRow, string>)
    ensures r.Ok? <==> id in t.requests
    ensures r.Ok? ==> r.value == t.requests[id]
  {
    if id in t.requests then Ok(t.requests[id])
    else Err("failed to get status change request: " + NoRows)
  }

  /** Writes `status` and `processed_at` of the matching request; no match
      is not an error. */
  function UpdateStatusChangeRequest(t: NotificationTables, id: string, status: string, processedAt: Timestamp)
    : (r: NotificationTables)
    ensures r.notifications == t.notifications
    ensures r.requests.Keys == t.requests.Keys
    ensures OtherRequestsUnchanged(t.requests, r.requests, id)
    ensures id in t.requests ==>
              var s, o := r.requests[id], t.requests[id];
              s.status == status && s.processedAt == Some(processedAt)
              && s.(status := o.status, processedAt := o.processedAt) == o
    ensures id !in t.requests ==> r == t
  {
    if id in t.requests then
      t.(requests := t.requests[id := t.requests[id].(status := status, processedAt := Some(processedAt))])
    else
      t
  }

  ghost predicate SomeRequestFor(t: NotificationTables, notificationId: string)
  {
    exists id :: id in t.requests && t.requests[id].notificationId == notificationId
  }

  /** `WHERE notification_id = ?`: some request naming that notification. */
  ghost function GetStatusChangeRequestByNotificationId(t: NotificationTables, notificationId: string)
    : (r: Result<(string, RequestRow), string>)
    ensures r.Ok? <==> SomeRequestFor(t, notificationId)
    ensures r.Ok? ==> r.value.0 in t.requests && r.value.1 == t.requests[r.value.0]
                      && r.value.1.notificationId == notificationId
  {
    if SomeRequestFor(t, notificationId) then
      var id :| id in t.requests && t.requests[id].notificationId == notificationId;
      Ok((id, t.requests[id]))
    else
      Err("failed to get status change request by notification id: " + NoRows)
  }

  // ---------------------------------------------------------------------
  // Properties

  /** A created notification is found by id and counts as unread for its
      target: the count goes up by exactly one. */
  lemma CreateNotificationCountsUnread(t: NotificationTables, id: string, n: NotificationRow, now: Timestamp, memberId: string)
    requires id !in t.notifications
    ensures var t' := CreateNotification(t, id, n, now).value.0;
            && GetNotificationById(t', id).Ok?
            && GetUnreadNotificationCount(t', memberId) ==
                 GetUnreadNotificationCount(t, memberId) + (if n.targetMemberId == memberId then 1 else 0)
  {
    var t' := CreateNotification(t, id, n, now).value.0;
    UnreadAfterInsert(t, t', id, memberId);
    assert t'.notifications[id].readAt.None? && t'.notifications[id].targetMemberId == n.targetMemberId;
    AddOneCard(UnreadIds(t, memberId), UnreadIds(t', memberId), id, n.targetMemberId == memberId);
  }

  /** The unread set after a row `id` was added or changed and nothing else. */
  lemma UnreadAfterInsert(t: NotificationTables, t': NotificationTables, id: string, memberId: string)
    requires id in t'.notifications
    requires t'.notifications.Keys == t.notifications.Keys + {id}
    requires OtherNotificationsUnchanged(t.notifications, t'.notifications, id)
    ensures UnreadIds(t', memberId) - {id} == UnreadIds(t, memberId) - {id}
    ensures id in UnreadIds(t', memberId) <==>
              t'.notifications[id].targetMemberId == memberId && t'.notifications[id].readAt.None?
  {
  }

  lemma AddOneCard(before: set<string>, after: set<string>, id: string, added: bool)
    requires id !in before
    requires after - {id} == before - {id}
    requires id in after <==> added
    ensures |after| == |before| + (if added then 1 else 0)
  {
    assert before - {id} == before;
    if added {
      assert after == (after - {id}) + {id};
    } else {
      assert after == after - {id};
    }
  }

  /** Marking a notification read takes one off its owner's unread count
      when it was unread, and changes nothing when it was already read. */
  lemma MarkAsReadCount(t: NotificationTables, id: string, memberId: string, now: Timestamp)
    requires MarkNotificationAsRead(t, id, memberId, now).Ok?
    ensures var t' := MarkNotificationAsRead(t, id, memberId, now).value;
            GetUnreadNotificationCount(t', memberId) ==
              GetUnreadNotificationCount(t, memberId) - (if t.notifications[id].readAt.None? then 1 else 0)
  {
    var t' := MarkNotificationAsRead(t, id, memberId, now).value;
    assert UnreadIds(t', memberId) == UnreadIds(t, memberId) - {id};
  }

  /** A second mark in the same second of `NOW()` fails as "not found", while
      a mark at any other instant succeeds again. */
  lemma MarkTwice(t: NotificationTables, id: string, memberId: string, now: Timestamp, later: Timestamp)
    requires MarkNotificationAsRead(t, id, memberId, now).Ok?
    ensures var t' := MarkNotificationAsRead(t, id, memberId, now).value;
            && MarkNotificationAsRead(t', id, memberId, now) == Err(NotOwned)
            && (later != now ==> MarkNotificationAsRead(t', id, memberId, later).Ok?)
  {
  }

  /** Number of rows in a listing that have no `read_at`. */
  function CountUnread(rows: seq<NotificationWithMember>): (n: nat)
    ensures n <= |rows|
  {
    if rows == [] then 0
    else (if rows[0].row.readAt.None? then 1 else 0) + CountUnread(rows[1..])
  }

  /** Number of ids in `ids` whose stored notification has no `read_at`. */
  function CountUnreadIds(rows: map<string, NotificationRow>, ids: seq<string>): (n: nat)
    requires forall i :: 0 <= i < |ids| ==> ids[i] in rows
    ensures n <= |ids|
  {
    if ids == [] then 0
    else (if rows[ids[0]].readAt.None? then 1 else 0) + CountUnreadIds(rows, ids[1..])
  }

  lemma {:induction false} CountJoined(t: NotificationTables, members: map<string, MemberRow>, ids: seq<string>)
    requires forall i :: 0 <= i < |ids| ==> ids[i] in t.notifications
    requires JoinAll(t, members, ids).Ok?
    ensures CountUnread(JoinAll(t, members, ids).value) == CountUnreadIds(t.notifications, ids)
  {
    if ids != [] {
      var rows := JoinAll(t, members, ids).value;
      CountJoined(t, members, ids[1..]);
      assert JoinAll(t, members, ids[1..]).value == rows[1..];
    }
  }

  lemma {:induction false} CountNewestFirst(rows: map<string, NotificationRow>, ids: set<string>)
    requires ids <= rows.Keys
    ensures CountUnreadIds(rows, NewestFirst(rows, ids)) == |UnreadAmong(rows, ids)|
    decreases |ids|
  {
    var r := NewestFirst(rows, ids);
    if ids == {} {
      assert UnreadAmong(rows, ids) == {};
    } else {
      NewestFirstStep(rows, ids);
      var top := r[0];
      assert CountUnreadIds(rows, r) == (if rows[top].readAt.None? then 1 else 0) + CountUnreadIds(rows, r[1..]);
      CountNewestFirst(rows, ids - {top});
      UnreadAmongSplit(rows, ids, top);
    }
  }

  /** The ids among `ids` whose notification has no `read_at`. */
  function UnreadAmong(rows: map<string, NotificationRow>, ids: set<string>): (u: set<string>)
    requires ids <= rows.Keys
    ensures forall id :: id in u <==> id in ids && rows[id].readAt.None?
  {
    set id | id in ids && rows[id].readAt.None?
  }

  lemma UnreadAmongSplit(rows: map<string, NotificationRow>, ids: set<string>, top: string)
    requires ids <= rows.Keys && top in ids
    ensures |UnreadAmong(rows, ids)| == |UnreadAmong(rows, ids - {top})| + (if rows[top].readAt.None? then 1 else 0)
  {
    if rows[top].readAt.None? {
      assert UnreadAmong(rows, ids) == UnreadAmong(rows, ids - {top}) + {top};
    } else {
      assert UnreadAmong(rows, ids) == UnreadAmong(rows, ids - {top});
    }
  }

  /** The unread count agrees with the listing: it is the number of listed
      notifications that have no `read_at`. */
  lemma UnreadCountMatchesListing(t: NotificationTables, members: map<string, MemberRow>, memberId: string)
    requires GetNotificationsByMemberId(t, members, memberId).Ok?
    ensures CountUnread(GetNotificationsByMemberId(t, members, memberId).value)
              == GetUnreadNotificationCount(t, memberId)
  {
    var targeted := TargetedIds(t, memberId);
    var ids := NewestFirst(t.notifications, targeted);
    CountJoined(t, members, ids);
    CountNewestFirst(t.notifications, targeted);
    assert UnreadAmong(t.notifications, targeted) == UnreadIds(t, memberId);
  }

  /** A request reads back as it was created, with `processed_at` unset. */
  lemma CreateThenGetRequest(t: NotificationTables, id: string, q: RequestRow, now: Timestamp)
    requires id !in t.requests
    ensures GetStatusChangeRequestById(t, id).Err?
    ensures GetStatusChangeRequestById(CreateStatusChangeRequest(t, id, q, now).value.0, id)
              == Ok(q.(processedAt := None, createdAt := now))
  {
  }
}

=== FILE: notification_service.dfy ===
/** `service/notification_service.go`: the notification listing and the
    role-change approval workflow.

    Every operation runs in one transaction that is rolled back unless it
    reaches its commit, so each one either fails with the database left as
    it was, or succeeds with a new database and a response. The caller is
    the member the bearer token's NRA resolves to. Each operation takes the
    result of that lookup (`caller`); the ghost wrappers at the end perform
    the lookup with `GetMemberByNRA`. Fresh ids stand for `uuid.New()`, and
    `now` stands for both `time.Now()` and the database's `NOW()`.
 */
module NotificationService {
  import opened Outcomes
  import opened Model
  import MR = MemberRepository
  import NR = NotificationRepository

  datatype StatusChangeInput = StatusChangeInput(targetMemberId: string, fromRole: string, toRole: string)

  datatype StatusChangeResponse = StatusChangeResponse(requestId: string, notificationId: string, message: string)

  datatype AcceptResponse = AcceptResponse(message: string, newRole: string)

  datatype RejectResponse = RejectResponse(message: string)

  datatype UnreadCountResponse = UnreadCountResponse(unreadCount: nat)

  datatype FromMemberDetails = FromMemberDetails(idMember: string, nama: string, nra: string, role: string)

  /** `dto.NotificationResponse`; an absent `read_at` or `accepted` is
      encoded as `null`, and an absent `metadata` is left out of the JSON. */
  datatype NotificationResponse = NotificationResponse(
    idNotification: string,
    notificationType: string,
    title: string,
    message: string,
    pending: bool,
    createdAt: Timestamp,
    fromMember: FromMemberDetails,
    readAt: Option<Timestamp>,
    accepted: Option<bool>,
    metadata: Option<Metadata>)

  const StatusChangeTitle: string := "Status Change Request"

  // ---------------------------------------------------------------------
  // The listing

  /** What a stored metadata text decodes to: text that is not JSON is
      dropped rather than failing the listing. */
  function DecodeMetadata(m: Option<MetadataText>): (r: Option<Metadata>)
    ensures r.Some? <==> m.Some? && m.value.Structured?
    ensures r.Some? ==> r.value == m.value.meta
  {
    match m
    case Some(Structured(meta)) => Some(meta)
    case _ => None
  }

  /** One listing row as a response. */
  function ToNotificationResponse(n: NotificationWithMember): (r: NotificationResponse)
    ensures r.idNotification == n.id && r.notificationType == n.row.notificationType
    ensures r.title == n.row.title && r.message == n.row.message
    ensures r.pending == n.row.pending && r.createdAt == n.row.createdAt
    ensures r.readAt == n.row.readAt && r.accepted == n.row.accepted
    ensures r.fromMember == FromMemberDetails(n.row.fromMemberId, n.fromMemberName, n.fromMemberNra, n.fromMemberRole)
    ensures r.metadata == DecodeMetadata(n.row.metadata)
    ensures r.metadata.Some? <==> n.row.metadata.Some? && n.row.metadata.value.Structured?
    ensures r.metadata.Some? ==> r.metadata.value == n.row.metadata.value.meta
  {
    NotificationResponse(n.id, n.row.notificationType, n.row.title, n.row.message, n.row.pending,
                         n.row.createdAt,
                         FromMemberDetails(n.row.fromMemberId, n.fromMemberName, n.fromMemberNra, n.fromMemberRole),
                         n.row.readAt, n.row.accepted, DecodeMetadata(n.row.metadata))
  }

  function ToNotificationResponses(ns: seq<NotificationWithMember>): (rs: seq<NotificationResponse>)
    ensures |rs| == |ns|
    ensures forall i :: 0 <= i < |ns| ==> rs[i] == ToNotificationResponse(ns[i])
  {
    if ns == [] then [] else [ToNotificationResponse(ns[0])] + ToNotificationResponses(ns[1..])
  }

  /** `GetNotifications` for a resolved caller: the caller's notifications
      in the repository's order, projected. */
  ghost function GetNotificationsAs(db: Db, caller: Result<Member, string>): (r: Result<seq<NotificationResponse>, Failure>)
    ensures caller.Err? ==> r.Err? && r.error.status == InternalServerError
    ensures caller.Ok? ==>
              var listing := NR.GetNotificationsByMemberId(db.notificationTables, db.memberTables.members, caller.value.idMember);
              (r.Ok? <==> listing.Ok?) && (r.Ok? ==> r.value == ToNotificationResponses(listing.value))
    ensures r.Err? ==> r.error.status == InternalServerError
  {
    match caller
    case Err(e) => Err(InternalError("failed to get member: " + e))
    case Ok(member) =>
      match NR.GetNotificationsByMemberId(db.notificationTables, db.memberTables.members, member.idMember)
      case Err(e) => Err(InternalError("failed to get notifications: " + e))
      case Ok(listing) => Ok(ToNotificationResponses(listing))
  }

  // ---------------------------------------------------------------------
  // Read marks and the unread count

  function MarkNotificationAsReadAs(db: Db, caller: Result<Member, string>, notificationId: string, now: Timestamp)
    : (r: Result<Db, Failure>)
    ensures r.Ok? <==> caller.Ok? && NR.MarkNotificationAsRead(db.notificationTables, notificationId, caller.value.idMember, now).Ok?
    ensures r.Ok? ==> r.value == db.(notificationTables :=
                        NR.MarkNotificationAsRead(db.notificationTables, notificationId, caller.value.idMember, now).value)
    ensures r.Err? ==> r.error.status == InternalServerError
  {
    match caller
    case Err(e) => Err(InternalError("failed to get member: " + e))
    case Ok(member) =>
      match NR.MarkNotificationAsRead(db.notificationTables, notificationId, member.idMember, now)
      case Err(e) => Err(InternalError("failed to mark notification as read: " + e))
      case Ok(nt) => Ok(db.(notificationTables := nt))
  }

  function GetUnreadNotificationCountAs(db: Db, caller: Result<Member, string>): (r: Result<UnreadCountResponse, Failure>)
    ensures r.Ok? <==> caller.Ok?
    ensures r.Err? ==> r.error.status == InternalServerError
    ensures r.Ok? ==> r.value.unreadCount == NR.GetUnreadNotificationCount(db.notificationTables, caller.value.idMember)
  {
    match caller
    case Err(e) => Err(InternalError("failed to get member: " + e))
    case Ok(member) => Ok(UnreadCountResponse(NR.GetUnreadNotificationCount(db.notificationTables, member.idMember)))
  }

  // ---------------------------------------------------------------------
  // Creating a request

  /** `"%s requests to change your role from %s to %s"`. */
  function RequestMessage(nama: string, fromRole: string, toRole: string): string
  {
    nama + " requests to change your role from " + fromRole + " to " + toRole
  }

  /** `nt2` is `nt` plus one pending status-change notification `nid` and
      one pending request `rid` that names it, with nothing else changed. */
  predicate PairAdded(nt: NotificationTables, nt2: NotificationTables, nid: string, rid: string,
                      fromId: string, targetId: string, fromRole: string, toRole: string)
  {
    && nt2.notifications.Keys == nt.notifications.Keys + {nid}
    && nt2.requests.Keys == nt.requests.Keys + {rid}
    && NR.OtherNotificationsUnchanged(nt.notifications, nt2.notifications, nid)
    && NR.OtherRequestsUnchanged(nt.requests, nt2.requests, rid)
    && var n, q := nt2.notifications[nid], nt2.requests[rid];
       && n.targetMemberId == targetId && n.fromMemberId == fromId
       && n.notificationType == StatusChangeType && n.title == StatusChangeTitle
       && n.metadata == Some(Structured(Metadata(rid, fromRole, toRole)))
       && n.pending && n.readAt.None? && n.accepted.None?
       && q.notificationId == nid && q.targetMemberId == targetId && q.requestedByMemberId == fromId
       && q.fromRole == fromRole && q.toRole == toRole
       && q.status == StatusPending && q.processedAt.None?
  }

  /** The paired insert shared by `CreateStatusChangeRequest` and
      `SendStatusChangeNotification`: both rows or neither. */
  function InsertRequestPair(nt: NotificationTables, from: Member, targetId: string, fromRole: string, toRole: string,
                             nid: string, rid: string, now: Timestamp): (r: Result<NotificationTables, string>)
    ensures r.Ok? <==> nid !in nt.notifications && rid !in nt.requests
    ensures r.Ok? ==> PairAdded(nt, r.value, nid, rid, from.idMember, targetId, fromRole, toRole)
    ensures r.Ok? ==> r.value.notifications[nid].message == RequestMessage(from.row.nama, fromRole, toRole)
  {
    var notification := NotificationRow(
      targetId, from.idMember, StatusChangeType, StatusChangeTitle, RequestMessage(from.row.nama, fromRole, toRole),
      Some(Structured(Metadata(rid, fromRole, toRole))), None, true, None, 0, 0);
    match NR.CreateNotification(nt, nid, notification, now)
    case Err(e) => Err("failed to create notification: " + e)
    case Ok((nt1, _)) =>
      var request := RequestRow(nid, targetId, from.idMember, fromRole, toRole, StatusPending, None, 0);
      match NR.CreateStatusChangeRequest(nt1, rid, request, now)
      case Err(e) => Err("failed to create status change request: " + e)
      case Ok((nt2, _)) => Ok(nt2)
  }

  /** The checks of `CreateStatusChangeRequest`, in order: the three inputs,
      the requester's role, the target's existence, and the two roles. On
      success, the requester. */
  function CheckRequest(db: Db, requester: Result<Member, string>, input: StatusChangeInput): (r: Result<Member, Failure>)
    ensures input.targetMemberId == "" || input.fromRole == "" || input.toRole == "" ==>
              r.Err? && r.error.status == BadRequest
    ensures input.targetMemberId != "" && input.fromRole != "" && input.toRole != "" && requester.Err? ==>
              r.Err? && r.error.status == InternalServerError
    ensures input.targetMemberId != "" && input.fromRole != "" && input.toRole != "" && requester.Ok?
            && requester.value.row.role != BoardRole ==>
              r.Err? && r.error.status == Forbidden
    ensures input.targetMemberId != "" && input.fromRole != "" && input.toRole != "" && requester.Ok?
            && requester.value.row.role == BoardRole && MR.GetMemberById(db.memberTables, input.targetMemberId).Err? ==>
              r.Err? && r.error.status == InternalServerError
    ensures input.targetMemberId != "" && input.fromRole != "" && input.toRole != "" && requester.Ok?
            && requester.value.row.role == BoardRole && MR.GetMemberById(db.memberTables, input.targetMemberId).Ok?
            && (MR.GetMemberById(db.memberTables, input.targetMemberId).value.row.role != BoardRole
                || input.fromRole != BoardRole) ==>
              r.Err? && r.error.status == BadRequest
    ensures r.Ok? <==>
              && input.targetMemberId != "" && input.fromRole != "" && input.toRole != ""
              && requester.Ok? && requester.value.row.role == BoardRole
              && MR.GetMemberById(db.memberTables, input.targetMemberId).Ok?
              && MR.GetMemberById(db.memberTables, input.targetMemberId).value.row.role == BoardRole
              && input.fromRole == BoardRole
    ensures r.Ok? ==> r.value == requester.value
  {
    if input.targetMemberId == "" || input.fromRole == "" || input.toRole == "" then
      Err(BadRequestError("target_member_id, from_role, and to_role are required"))
    else
      match requester
      case Err(e) => Err(InternalError("failed to get requester member: " + e))
      case Ok(from) =>
        if from.row.role != BoardRole then
          Err(ForbiddenError("only BPH members can request role changes"))
        else
          match MR.GetMemberById(db.memberTables, input.targetMemberId)
          case Err(e) => Err(InternalError("failed to get target member: " + e))
          case Ok(target) =>
            if target.row.role != BoardRole || input.fromRole != BoardRole then
              Err(BadRequestError("role change requests only allowed for BPH members"))
            else
              Ok(from)
  }

  /** `CreateStatusChangeRequest`: the checks, then the paired insert. */
  function CreateStatusChangeRequestAs(db: Db, requester: Result<Member, string>, input: StatusChangeInput,
                                       nid: string, rid: string, now: Timestamp)
    : (r: Result<(Db, StatusChangeResponse), Failure>)
    ensures CheckRequest(db, requester, input).Err? ==> r == Err(CheckRequest(db, requester, input).error)
    ensures r.Ok? <==> CheckRequest(db, requester, input).Ok?
                       && nid !in db.notificationTables.notifications && rid !in db.notificationTables.requests
    ensures r.Ok? ==> var (db2, resp) := r.value;
                      && db2.memberTables == db.memberTables
                      && PairAdded(db.notificationTables, db2.notificationTables, nid, rid,
                                   requester.value.idMember, input.targetMemberId, input.fromRole, input.toRole)
                      && resp == StatusChangeResponse(rid, nid, "Role change request sent successfully")
  {
    match CheckRequest(db, requester, input)
    case Err(f) => Err(f)
    case Ok(from) =>
      match InsertRequestPair(db.notificationTables, from, input.targetMemberId, input.fromRole, input.toRole,
                              nid, rid, now)
      case Err(e) => Err(InternalError(e))
      case Ok(nt) => Ok((db.(notificationTables := nt),
                         StatusChangeResponse(rid, nid, "Role change request sent successfully")))
  }

  /** `SendStatusChangeNotification`: the same paired insert, for any two
      members and roles, without role checks. Its errors carry no status. */
  function SendStatusChangeNotification(db: Db, fromId: string, targetId: string, fromRole: string, toRole: string,
                                        nid: string, rid: string, now: Timestamp): (r: Result<Db, string>)
    ensures r.Ok? <==> MR.GetMemberById(db.memberTables, fromId).Ok?
                       && nid !in db.notificationTables.notifications && rid !in db.notificationTables.requests
    ensures r.Ok? ==> r.value.memberTables == db.memberTables
                      && PairAdded(db.notificationTables, r.value.notificationTables, nid, rid, fromId, targetId, fromRole, toRole)
  {
    match MR.GetMemberById(db.memberTables, fromId)
    case Err(e) => Err("failed to get requester member: " + e)
    case Ok(from) =>
      match InsertRequestPair(db.notificationTables, from, targetId, fromRole, toRole, nid, rid, now)
      case Err(e) => Err(e)
      case Ok(nt) => Ok(db.(notificationTables := nt))
  }

  // ---------------------------------------------------------------------
  // Resolving a request

  /** `updateNotificationStatus`: sets `pending`, `accepted`, `read_at` and
      `updated_at` of the notification; no match is not an error. */
  function UpdateNotificationStatus(nt: NotificationTables, id: string, pending: bool, accepted: bool, now: Timestamp)
    : (r: NotificationTables)
    ensures r.requests == nt.requests
    ensures r.notifications.Keys == nt.notifications.Keys
    ensures NR.OtherNotificationsUnchanged(nt.notifications, r.notifications, id)
    ensures id in nt.notifications ==>
              var s, o := r.notifications[id], nt.notifications[id];
              s.pending == pending && s.accepted == Some(accepted) && s.readAt == Some(now) && s.updatedAt == now
              && s.(pending := o.pending, accepted := o.accepted, readAt := o.readAt, updatedAt := o.updatedAt) == o
    ensures id !in nt.notifications ==> r == nt
  {
    if id in nt.notifications then
      nt.(notifications := nt.notifications[id := nt.notifications[id].(
        pending := pending, accepted := Some(accepted), readAt := Some(now), updatedAt := now)])
    else
      nt
  }

  /** The checks Accept and Reject share, in order: the caller, the
      request, the caller being its target, the request still pending. */
  function CheckResolvable(db: Db, caller: Result<Member, string>, requestId: string, verb: string)
    : (r: Result<(Member, RequestRow), Failure>)
    ensures r.Ok? <==> caller.Ok? && requestId in db.notificationTables.requests
                       && db.notificationTables.requests[requestId].targetMemberId == caller.value.idMember
                       && db.notificationTables.requests[requestId].status == StatusPending
    ensures r.Ok? ==> r.value == (caller.value, db.notificationTables.requests[requestId])
    ensures caller.Err? || requestId !in db.notificationTables.requests ==> r.Err? && r.error.status == InternalServerError
    ensures caller.Ok? && requestId in db.notificationTables.requests
            && db.notificationTables.requests[requestId].targetMemberId != caller.value.idMember ==>
              r.Err? && r.error.status == Forbidden
    ensures caller.Ok? && requestId in db.notificationTables.requests
            && db.notificationTables.requests[requestId].targetMemberId == caller.value.idMember
            && db.notificationTables.requests[requestId].status != StatusPending ==>
              r.Err? && r.error.status == BadRequest
  {
    match caller
    case Err(e) => Err(InternalError("failed to get member: " + e))
    case Ok(member) =>
      match NR.GetStatusChangeRequestById(db.notificationTables, requestId)
      case Err(e) => Err(InternalError("failed to get status change request: " + e))
      case Ok(request) =>
        if request.targetMemberId != member.idMember then
          Err(ForbiddenError("you can only " + verb + " your own status change requests"))
        else if request.status != StatusPending then
          Err(BadRequestError("request has already been processed"))
        else
          Ok((member, request))
  }

  /** The member record Accept writes back: the caller's fields with the new
      role. The record names no login token, which the update does not
      write anyway. */
  function WithRole(member: Member, role: string): (row: MemberRow)
    ensures row.role == role
    ensures MR.SameUpdatedColumns(row, member.row.(role := role))
  {
    member.row.(role := role, loginToken := Null)
  }

  /** Accept: the member's role becomes the requested one, the request is
      accepted and the notification closed as accepted. */
  function AcceptStatusChangeRequestAs(db: Db, caller: Result<Member, string>, requestId: string, now: Timestamp)
    : (r: Result<(Db, AcceptResponse), Failure>)
    ensures r.Ok? <==> CheckResolvable(db, caller, requestId, "accept").Ok?
    ensures r.Err? ==> r.error == CheckResolvable(db, caller, requestId, "accept").error
    ensures r.Ok? ==>
              var member := caller.value;
              var q := db.notificationTables.requests[requestId];
              var (db2, resp) := r.value;
              && resp == AcceptResponse("Role change accepted", q.toRole)
              && db2.memberTables == MR.UpdateMember(db.memberTables, member.idMember, WithRole(member, q.toRole))
              && db2.notificationTables == UpdateNotificationStatus(
                   NR.UpdateStatusChangeRequest(db.notificationTables, requestId, StatusAccepted, now),
                   q.notificationId, false, true, now)
  {
    match CheckResolvable(db, caller, requestId, "accept")
    case Err(f) => Err(f)
    case Ok((member, request)) =>
      var mt := MR.UpdateMember(db.memberTables, member.idMember, WithRole(member, request.toRole));
      var nt := NR.UpdateStatusChangeRequest(db.notificationTables, requestId, StatusAccepted, now);
      var nt2 := UpdateNotificationStatus(nt, request.notificationId, false, true, now);
      Ok((Db(mt, nt2), AcceptResponse("Role change accepted", request.toRole)))
  }

  /** Reject: the request is rejected and the notification closed as not
      accepted; the members are left alone. */
  function RejectStatusChangeRequestAs(db: Db, caller: Result<Member, string>, requestId: string, now: Timestamp)
    : (r: Result<(Db, RejectResponse), Failure>)
    ensures r.Ok? <==> CheckResolvable(db, caller, requestId, "reject").Ok?
    ensures r.Err? ==> r.error == CheckResolvable(db, caller, requestId, "reject").error
    ensures r.Ok? ==>
              var q := db.notificationTables.requests[requestId];
              var (db2, resp) := r.value;
              && resp == RejectResponse("Role change rejected")
              && db2.memberTables == db.memberTables
              && db2.notificationTables == UpdateNotificationStatus(
                   NR.UpdateStatusChangeRequest(db.notificationTables, requestId, StatusRejected, now),
                   q.notificationId, false, false, now)
  {
    match CheckResolvable(db, caller, requestId, "reject")
    case Err(f) => Err(f)
    case Ok((_, request)) =>
      var nt := NR.UpdateStatusChangeRequest(db.notificationTables, requestId, StatusRejected, now);
      var nt2 := UpdateNotificationStatus(nt, request.notificationId, false, false, now);
      Ok((db.(notificationTables := nt2), RejectResponse("Role change rejected")))
  }

  // ---------------------------------------------------------------------
  // The operations as the handlers call them: the caller is looked up by
  // the NRA in the bearer token's claims.

  ghost function GetNotifications(db: Db, nra: string): (r: Result<seq<NotificationResponse>, Failure>)
  {
    GetNotificationsAs(db, MR.GetMemberByNRA(db.memberTables, nra))
  }

  ghost function MarkNotificationAsRead(db: Db, nra: string, notificationId: string, now: Timestamp): (r: Result<Db, Failure>)
  {
    MarkNotificationAsReadAs(db, MR.GetMemberByNRA(db.memberTables, nra), notificationId, now)
  }

  ghost function GetUnreadNotificationCount(db: Db, nra: string): (r: Result<UnreadCountResponse, Failure>)
  {
    GetUnreadNotificationCountAs(db, MR.GetMemberByNRA(db.memberTables, nra))
  }

  ghost function CreateStatusChangeRequest(db: Db, nra: string, input: StatusChangeInput, nid: string, rid: string, now: Timestamp)
    : (r: Result<(Db, StatusChangeResponse), Failure>)
  {
    CreateStatusChangeRequestAs(db, MR.GetMemberByNRA(db.memberTables, nra), input, nid, rid, now)
  }

  ghost function AcceptStatusChangeRequest(db: Db, nra: string, requestId: string, now: Timestamp)
    : (r: Result<(Db, AcceptResponse), Failure>)
  {
    AcceptStatusChangeRequestAs(db, MR.GetMemberByNRA(db.memberTables, nra), requestId, now)
  }

  ghost function RejectStatusChangeRequest(db: Db, nra: string, requestId: string, now: Timestamp)
    : (r: Result<(Db, RejectResponse), Failure>)
  {
    RejectStatusChangeRequestAs(db, MR.GetMemberByNRA(db.memberTables, nra), requestId, now)
  }
}

=== FILE: outcomes.dfy ===
/** Failure-carrying result types shared by every layer of the model.

    Repository calls fail with the text of a Go `error`; service calls fail
    with an HTTP status class and a message, mirroring the `(…, int, error)`
    triples the Go services return.
 */
module Outcomes {

  datatype Option<+T> = None | Some(value: T)

  datatype Result<+T, +E> = Ok(value: T) | Err(error: E)

  /** The HTTP status classes the services answer with on failure. */
  datatype Status = BadRequest | Forbidden | InternalServerError {
    function Code(): (c: int)
      ensures 400 <= c < 600
    {
      match this
      case BadRequest => 400
      case Forbidden => 403
      case InternalServerError => 500
    }
  }

  datatype Failure = Failure(status: Status, message: string)

  function BadRequestError(message: string): Failure { Failure(BadRequest, message) }
  function ForbiddenError(message: string): Failure { Failure(Forbidden, message) }
  function InternalError(message: string): Failure { Failure(InternalServerError, message) }
}

=== FILE: valid.dfy ===
/** `util.IsValidNRA` and `util.IsValidEmail`, hand-written for their two
    regular expressions. Each comes with a reference reading of the pattern
    (the string splits into the pieces the pattern names) and a lemma that
    the hand-written check accepts exactly the strings the pattern matches.
    RE2's `\d` and `[a-zA-Z]` are ASCII-only, and `$` without the `m` flag
    matches only at the very end of the text.
 */
module Validators {
  import opened Outcomes
  import opened Ascii

  predicate Every(s: string, p: char -> bool)
  {
    forall i :: 0 <= i < |s| ==> p(s[i])
  }

  // ---------------------------------------------------------------------
  // NRA: ^\d{2}\.\d{2}\.\d{3}$

  /** The pattern read as a concatenation: two, two and three digits joined
      by dots. */
  ghost predicate MatchesNraPattern(s: string)
  {
    exists a: string, b: string, c: string
      :: s == a + "." + b + "." + c
         && |a| == 2 && |b| == 2 && |c| == 3
         && AllDigits(a) && AllDigits(b) && AllDigits(c)
  }

  /** Nine characters: dots at positions 2 and 5, ASCII digits elsewhere. */
  predicate IsValidNRA(s: string)
  {
    && |s| == 9
    && s[2] == '.' && s[5] == '.'
    && forall i :: 0 <= i < |s| && i != 2 && i != 5 ==> IsDigit(s[i])
  }

  lemma NraCheckMatchesPattern(s: string)
    ensures IsValidNRA(s) <==> MatchesNraPattern(s)
  {
    if IsValidNRA(s) {
      NraCheckSound(s);
    }
    if MatchesNraPattern(s) {
      var a: string, b: string, c: string :|
        s == a + "." + b + "." + c
        && |a| == 2 && |b| == 2 && |c| == 3
        && AllDigits(a) && AllDigits(b) && AllDigits(c);
      NraPatternChecked(s, a, b, c);
    }
  }

  lemma NraCheckSound(s: string)
    requires IsValidNRA(s)
    ensures MatchesNraPattern(s)
  {
    var a, b, c := s[0..2], s[3..5], s[6..9];
    assert s == a + "." + b + "." + c;
    assert AllDigits(a) by {
      forall k | 0 <= k < 2 ensures IsDigit(a[k]) { assert a[k] == s[k]; }
    }
    assert AllDigits(b) by {
      forall k | 0 <= k < 2 ensures IsDigit(b[k]) { assert b[k] == s[3 + k]; }
    }
    assert AllDigits(c) by {
      forall k | 0 <= k < 3 ensures IsDigit(c[k]) { assert c[k] == s[6 + k]; }
    }
  }

  lemma NraPatternChecked(s: string, a: string, b: string, c: string)
    requires s == a + "." + b + "." + c
    requires |a| == 2 && |b| == 2 && |c| == 3
    requires AllDigits(a) && AllDigits(b) && AllDigits(c)
    ensures IsValidNRA(s)
  {
    assert s[2] == '.' && s[5] == '.';
    forall i | 0 <= i < |s| && i != 2 && i != 5 ensures IsDigit(s[i]) {
      if i < 2 { assert s[i] == a[i]; }
      else if i < 5 { assert s[i] == b[i - 3]; }
      else { assert s[i] == c[i - 6]; }
    }
  }

  /** The empty string and anything with an ASCII letter in it are rejected. */
  lemma NraRejectsEmptyAndLetters(s: string, k: nat)
    requires k < |s| && IsLetter(s[k])
    ensures !IsValidNRA("")
    ensures !IsValidNRA(s)
  {
  }

  // ---------------------------------------------------------------------
  // E-mail: ^[a-zA-Z0-9._%+\-]+@[a-zA-Z0-9.\-]+\.[a-zA-Z]{2,}$

  predicate LocalChar(c: char)
  {
    IsLetter(c) || IsDigit(c) || c == '.' || c == '_' || c == '%' || c == '+' || c == '-'
  }

  predicate DomainChar(c: char)
  {
    IsLetter(c) || IsDigit(c) || c == '.' || c == '-'
  }

  /** The pattern read as a split: a non-empty local part, '@', a non-empty
      domain, '.', and a top-level label of at least two letters. */
  ghost predicate MatchesEmailPattern(s: string)
  {
    exists i, j
      :: 0 < i && i + 1 < j && j + 3 <= |s|
         && s[i] == '@' && s[j] == '.'
         && Every(s[..i], LocalChar)
         && Every(s[i + 1..j], DomainChar)
         && Every(s[j + 1..], IsLetter)
  }

  /** The first position of `c` in `s`. */
  function IndexOf(s: string, c: char): (r: Option<nat>)
    ensures r.Some? ==> r.value < |s| && s[r.value] == c && forall k :: 0 <= k < r.value ==> s[k] != c
    ensures r.None? ==> forall k :: 0 <= k < |s| ==> s[k] != c
  {
    if |s| == 0 then None
    else if s[0] == c then Some(0)
    else match IndexOf(s[1..], c)
      case None => None
      case Some(k) => Some(k + 1)
  }

  /** The last position of `c` in `s`. */
  function LastIndexOf(s: string, c: char): (r: Option<nat>)
    ensures r.Some? ==> r.value < |s| && s[r.value] == c && forall k :: r.value < k < |s| ==> s[k] != c
    ensures r.None? ==> forall k :: 0 <= k < |s| ==> s[k] != c
  {
    if |s| == 0 then None
    else if s[|s| - 1] == c then Some(|s| - 1)
    else LastIndexOf(s[..|s| - 1], c)
  }

  /** The local part runs up to the first '@'; the top-level label starts
      after the last '.' of what follows it. */
  predicate IsValidEmail(s: string)
  {
    match IndexOf(s, '@')
    case None => false
    case Some(at) =>
      var rest := s[at + 1..];
      match LastIndexOf(rest, '.')
      case None => false
      case Some(dot) =>
        && 0 < at && Every(s[..at], LocalChar)
        && 0 < dot && Every(rest[..dot], DomainChar)
        && dot + 3 <= |rest| && Every(rest[dot + 1..], IsLetter)
  }

  lemma EmailCheckMatchesPattern(s: string)
    ensures IsValidEmail(s) <==> MatchesEmailPattern(s)
  {
    if IsValidEmail(s) {
      EmailCheckSound(s);
    }
    if MatchesEmailPattern(s) {
      var i, j :|
        0 < i && i + 1 < j && j + 3 <= |s|
        && s[i] == '@' && s[j] == '.'
        && Every(s[..i], LocalChar)
        && Every(s[i + 1..j], DomainChar)
        && Every(s[j + 1..], IsLetter);
      EmailPatternChecked(s, i, j);
    }
  }

  lemma EmailCheckSound(s: string)
    requires IsValidEmail(s)
    ensures MatchesEmailPattern(s)
  {
    var at := IndexOf(s, '@').value;
    var rest := s[at + 1..];
    var dot := LastIndexOf(rest, '.').value;
    var j := at + 1 + dot;
    assert s[at + 1..j] == rest[..dot];
    assert s[j + 1..] == rest[dot + 1..];
    assert s[j] == rest[dot];
  }

  lemma EmailPatternChecked(s: string, i: nat, j: nat)
    requires 0 < i && i + 1 < j && j + 3 <= |s|
    requires s[i] == '@' && s[j] == '.'
    requires Every(s[..i], LocalChar)
    requires Every(s[i + 1..j], DomainChar)
    requires Every(s[j + 1..], IsLetter)
    ensures IsValidEmail(s)
  {
    assert forall k :: 0 <= k < i ==> s[k] == s[..i][k];
    assert IndexOf(s, '@') == Some(i);
    var rest := s[i + 1..];
    var dot := j - i - 1;
    assert rest[dot] == '.';
    assert forall k :: dot < k < |rest| ==> rest[k] == s[j + 1..][k - dot - 1];
    assert LastIndexOf(rest, '.') == Some(dot);
    assert rest[..dot] == s[i + 1..j];
    assert rest[dot + 1..] == s[j + 1..];
  }

  /** A valid address holds exactly one '@'. */
  lemma ValidEmailHasOneAt(s: string)
    requires IsValidEmail(s)
    ensures exists i :: 0 <= i < |s| && s[i] == '@'
    ensures forall i, k :: 0 <= i < |s| && 0 <= k < |s| && s[i] == '@' && s[k] == '@' ==> i == k
  {
    var at := IndexOf(s, '@').value;
    var rest := s[at + 1..];
    var dot := LastIndexOf(rest, '.').value;
    forall k | at < k < |s| ensures s[k] != '@' {
      var r := k - at - 1;
      assert rest[r] == s[k];
      if r < dot {
        assert rest[..dot][r] == rest[r];
      } else if r > dot {
        assert rest[dot + 1..][r - dot - 1] == rest[r];
      }
    }
  }
}

=== FILE: workflow_properties.dfy ===
/** Properties of the role-change workflow across several operations: the
    invariant that ties each request to its notification, its preservation
    by every operation that writes either table, single resolution, the
    effect on the unread badge, and the role an accepted request grants.
 */
module WorkflowProperties {
  import opened Outcomes
  import opened Model
  import MR = MemberRepository
  import NR = NotificationRepository
  import NS = NotificationService

  // ---------------------------------------------------------------------
  // The invariant

  /** The notification `n` of request `rid` describes it: same target, its
      metadata names the request and its roles, and its `pending` and
      `accepted` flags follow the request's status. */
  predicate Describes(rid: string, q: RequestRow, n: NotificationRow)
  {
    && n.targetMemberId == q.targetMemberId
    && n.notificationType == StatusChangeType
    && n.metadata == Some(Structured(Metadata(rid, q.fromRole, q.toRole)))
    && (q.status == StatusPending || q.status == StatusAccepted || q.status == StatusRejected)
    && (q.status == StatusPending ==> n.pending && n.accepted.None?)
    && (q.status == StatusAccepted ==> !n.pending && n.accepted == Some(true))
    && (q.status == StatusRejected ==> !n.pending && n.accepted == Some(false))
  }

  /** Every request has its notification, and the notification describes it. */
  predicate Consistent(nt: NotificationTables)
  {
    forall rid :: rid in nt.requests ==>
      && nt.requests[rid].notificationId in nt.notifications
      && Describes(rid, nt.requests[rid], nt.notifications[nt.requests[rid].notificationId])
  }

  /** Under the invariant no two requests share a notification, so resolving
      one request closes only its own notification. */
  lemma NotificationPerRequest(nt: NotificationTables, a: string, b: string)
    requires Consistent(nt) && a in nt.requests && b in nt.requests && a != b
    ensures nt.requests[a].notificationId != nt.requests[b].notificationId
  {
    var na := nt.notifications[nt.requests[a].notificationId];
    assert na.metadata.value.meta.requestId == a;
  }

  /** Adding a request/notification pair keeps the invariant. */
  lemma PairAddedConsistent(nt: NotificationTables, nt2: NotificationTables, nid: string, rid: string,
                            fromId: string, targetId: string, fromRole: string, toRole: string)
    requires Consistent(nt)
    requires nid !in nt.notifications && rid !in nt.requests
    requires NS.PairAdded(nt, nt2, nid, rid, fromId, targetId, fromRole, toRole)
    ensures Consistent(nt2)
  {
    forall k | k in nt2.requests
      ensures nt2.requests[k].notificationId in nt2.notifications
      ensures Describes(k, nt2.requests[k], nt2.notifications[nt2.requests[k].notificationId])
    {
      if k != rid {
        var q := nt.requests[k];
        assert nt2.requests[k] == q;
        assert q.notificationId != nid;
        assert nt2.notifications[q.notificationId] == nt.notifications[q.notificationId];
      }
    }
  }

  /** Setting a request's status and closing its notification to match
      keeps the invariant. */
  lemma ResolveConsistent(nt: NotificationTables, rid: string, status: string, accepted: bool, now: Timestamp)
    requires Consistent(nt) && rid in nt.requests
    requires (status == StatusAccepted && accepted) || (status == StatusRejected && !accepted)
    ensures Consistent(NS.UpdateNotificationStatus(NR.UpdateStatusChangeRequest(nt, rid, status, now),
                                                   nt.requests[rid].notificationId, false, accepted, now))
  {
    var nid := nt.requests[rid].notificationId;
    var nt1 := NR.UpdateStatusChangeRequest(nt, rid, status, now);
    var nt2 := NS.UpdateNotificationStatus(nt1, nid, false, accepted, now);
    forall k | k in nt2.requests
      ensures nt2.requests[k].notificationId in nt2.notifications
      ensures Describes(k, nt2.requests[k], nt2.notifications[nt2.requests[k].notificationId])
    {
      if k != rid {
        NotificationPerRequest(nt, k, rid);
        assert nt2.requests[k] == nt.requests[k];
        assert nt2.notifications[nt.requests[k].notificationId] == nt.notifications[nt.requests[k].notificationId];
      } else {
        assert nt2.requests[rid] == nt.requests[rid].(status := status, processedAt := Some(now));
      }
    }
  }

  lemma CreateKeepsConsistent(db: Db, requester: Result<Member, string>, input: NS.StatusChangeInput,
                              nid: string, rid: string, now: Timestamp)
    requires Consistent(db.notificationTables)
    requires NS.CreateStatusChangeRequestAs(db, requester, input, nid, rid, now).Ok?
    ensures Consistent(NS.CreateStatusChangeRequestAs(db, requester, input, nid, rid, now).value.0.notificationTables)
  {
    var db2 := NS.CreateStatusChangeRequestAs(db, requester, input, nid, rid, now).value.0;
    PairAddedConsistent(db.notificationTables, db2.notificationTables, nid, rid,
                        requester.value.idMember, input.targetMemberId, input.fromRole, input.toRole);
  }

  lemma SendKeepsConsistent(db: Db, fromId: string, targetId: string, fromRole: string, toRole: string,
                            nid: string, rid: string, now: Timestamp)
    requires Consistent(db.notificationTables)
    requires NS.SendStatusChangeNotification(db, fromId, targetId, fromRole, toRole, nid, rid, now).Ok?
    ensures Consistent(NS.SendStatusChangeNotification(db, fromId, targetId, fromRole, toRole, nid, rid, now).value.notificationTables)
  {
    var db2 := NS.SendStatusChangeNotification(db, fromId, targetId, fromRole, toRole, nid, rid, now).value;
    PairAddedConsistent(db.notificationTables, db2.notificationTables, nid, rid, fromId, targetId, fromRole, toRole);
  }

  lemma AcceptKeepsConsistent(db: Db, caller: Result<Member, string>, rid: string, now: Timestamp)
    requires Consistent(db.notificationTables)
    requires NS.AcceptStatusChangeRequestAs(db, caller, rid, now).Ok?
    ensures Consistent(NS.AcceptStatusChangeRequestAs(db, caller, rid, now).value.0.notificationTables)
  {
    ResolveConsistent(db.notificationTables, rid, StatusAccepted, true, now);
  }

  lemma RejectKeepsConsistent(db: Db, caller: Result<Member, string>, rid: string, now: Timestamp)
    requires Consistent(db.notificationTables)
    requires NS.RejectStatusChangeRequestAs(db, caller, rid, now).Ok?
    ensures Consistent(NS.RejectStatusChangeRequestAs(db, caller, rid, now).value.0.notificationTables)
  {
    ResolveConsistent(db.notificationTables, rid, StatusRejected, false, now);
  }

  /** Reading a notification touches neither `pending` nor `accepted`. */
  lemma MarkAsReadKeepsConsistent(db: Db, caller: Result<Member, string>, id: string, now: Timestamp)
    requires Consistent(db.notificationTables)
    requires NS.MarkNotificationAsReadAs(db, caller, id, now).Ok?
    ensures Consistent(NS.MarkNotificationAsReadAs(db, caller, id, now).value.notificationTables)
  {
    var nt, nt2 := db.notificationTables, NS.MarkNotificationAsReadAs(db, caller, id, now).value.notificationTables;
    forall k | k in nt2.requests
      ensures nt2.requests[k].notificationId in nt2.notifications
      ensures Describes(k, nt2.requests[k], nt2.notifications[nt2.requests[k].notificationId])
    {
      var n := nt.notifications[nt.requests[k].notificationId];
      assert nt2.notifications[nt.requests[k].notificationId].metadata == n.metadata;
    }
  }

  // ---------------------------------------------------------------------
  // Resolution

  /** A request the target has not yet resolved can be accepted by its
      target, and only by its target: a freshly created request is
      accepted (or rejected) by the target member and no one else. */
  lemma CreatedRequestIsResolvable(db: Db, requester: Result<Member, string>, input: NS.StatusChangeInput,
                                   nid: string, rid: string, now: Timestamp, caller: Member, later: Timestamp)
    requires NS.CreateStatusChangeRequestAs(db, requester, input, nid, rid, now).Ok?
    ensures var db2 := NS.CreateStatusChangeRequestAs(db, requester, input, nid, rid, now).value.0;
            && (NS.AcceptStatusChangeRequestAs(db2, Ok(caller), rid, later).Ok? <==> caller.idMember == input.targetMemberId)
            && (NS.RejectStatusChangeRequestAs(db2, Ok(caller), rid, later).Ok? <==> caller.idMember == input.targetMemberId)
            && (caller.idMember == input.targetMemberId ==>
                  NS.AcceptStatusChangeRequestAs(db2, Ok(caller), rid, later).value.1.newRole == input.toRole)
  {
  }

  /** Once accepted, a request can be neither accepted nor rejected again,
      by anyone. */
  lemma AcceptedOnce(db: Db, caller: Result<Member, string>, rid: string, now: Timestamp,
                     caller2: Result<Member, string>, later: Timestamp)
    requires NS.AcceptStatusChangeRequestAs(db, caller, rid, now).Ok?
    ensures var db2 := NS.AcceptStatusChangeRequestAs(db, caller, rid, now).value.0;
            && NS.AcceptStatusChangeRequestAs(db2, caller2, rid, later).Err?
            && NS.RejectStatusChangeRequestAs(db2, caller2, rid, later).Err?
  {
    var db2 := NS.AcceptStatusChangeRequestAs(db, caller, rid, now).value.0;
    assert db2.notificationTables.requests[rid].status == StatusAccepted;
  }

  /** Once rejected, a request can be neither accepted nor rejected again. */
  lemma RejectedOnce(db: Db, caller: Result<Member, string>, rid: string, now: Timestamp,
                     caller2: Result<Member, string>, later: Timestamp)
    requires NS.RejectStatusChangeRequestAs(db, caller, rid, now).Ok?
    ensures var db2 := NS.RejectStatusChangeRequestAs(db, caller, rid, now).value.0;
            && NS.AcceptStatusChangeRequestAs(db2, caller2, rid, later).Err?
            && NS.RejectStatusChangeRequestAs(db2, caller2, rid, later).Err?
  {
    var db2 := NS.RejectStatusChangeRequestAs(db, caller, rid, now).value.0;
    assert db2.notificationTables.requests[rid].status == StatusRejected;
  }

  /** Accepting, as the handler does it, gives the caller the requested
      role and leaves every other column of the caller, and every other
      member, as stored; the caller still reads back. */
  lemma AcceptGrantsRole(db: Db, nra: string, rid: string, now: Timestamp)
    requires NS.AcceptStatusChangeRequest(db, nra, rid, now).Ok?
    ensures var m := MR.GetMemberByNRA(db.memberTables, nra).value;
            var toRole := db.notificationTables.requests[rid].toRole;
            var t2 := NS.AcceptStatusChangeRequest(db, nra, rid, now).value.0.memberTables;
            && m.idMember in t2.members
            && t2.members[m.idMember] == db.memberTables.members[m.idMember].(role := toRole)
            && MR.OthersUnchanged(db.memberTables.members, t2.members, m.idMember)
            && MR.GetMemberById(t2, m.idMember).Ok?
            && MR.GetMemberById(t2, m.idMember).value.row.role == toRole
  {
    var m := MR.GetMemberByNRA(db.memberTables, nra).value;
    var toRole := db.notificationTables.requests[rid].toRole;
    var t2 := NS.AcceptStatusChangeRequest(db, nra, rid, now).value.0.memberTables;
    var s := db.memberTables.members[m.idMember];
    assert m.row == s;
    var w := t2.members[m.idMember];
    assert MR.SameUpdatedColumns(w, NS.WithRole(m, toRole));
    assert w == s.(role := toRole);
  }

  /** Rejecting, as the handler does it, changes no member. */
  lemma RejectKeepsMembers(db: Db, nra: string, rid: string, now: Timestamp)
    requires NS.RejectStatusChangeRequest(db, nra, rid, now).Ok?
    ensures NS.RejectStatusChangeRequest(db, nra, rid, now).value.0.memberTables == db.memberTables
    ensures MR.GetMemberByNRA(db.memberTables, nra).value.idMember == db.notificationTables.requests[rid].targetMemberId
  {
  }

  // ---------------------------------------------------------------------
  // The unread badge

  /** A new request raises its target's unread count by one and leaves
      every other member's count alone. */
  lemma CreateRaisesUnread(db: Db, requester: Result<Member, string>, input: NS.StatusChangeInput,
                           nid: string, rid: string, now: Timestamp, memberId: string)
    requires NS.CreateStatusChangeRequestAs(db, requester, input, nid, rid, now).Ok?
    ensures var nt2 := NS.CreateStatusChangeRequestAs(db, requester, input, nid, rid, now).value.0.notificationTables;
            NR.GetUnreadNotificationCount(nt2, memberId) ==
              NR.GetUnreadNotificationCount(db.notificationTables, memberId)
              + (if input.targetMemberId == memberId then 1 else 0)
  {
    var nt := db.notificationTables;
    var nt2 := NS.CreateStatusChangeRequestAs(db, requester, input, nid, rid, now).value.0.notificationTables;
    NR.UnreadAfterInsert(nt, nt2, nid, memberId);
    NR.AddOneCard(NR.UnreadIds(nt, memberId), NR.UnreadIds(nt2, memberId), nid, input.targetMemberId == memberId);
  }

  /** Closing a notification marks it read: its target's count drops by one
      if it was unread; no other count moves. */
  lemma ResolveCount(nt: NotificationTables, rid: string, status: string, accepted: bool, now: Timestamp, memberId: string)
    requires rid in nt.requests
    ensures var nid := nt.requests[rid].notificationId;
            var nt2 := NS.UpdateNotificationStatus(NR.UpdateStatusChangeRequest(nt, rid, status, now), nid, false, accepted, now);
            NR.GetUnreadNotificationCount(nt2, memberId) ==
              NR.GetUnreadNotificationCount(nt, memberId)
              - (if nid in NR.UnreadIds(nt, memberId) then 1 else 0)
  {
    var nid := nt.requests[rid].notificationId;
    var nt2 := NS.UpdateNotificationStatus(NR.UpdateStatusChangeRequest(nt, rid, status, now), nid, false, accepted, now);
    assert NR.UnreadIds(nt2, memberId) == NR.UnreadIds(nt, memberId) - {nid};
  }

  /** Under the invariant, accepting takes the request's notification off
      the caller's unread count exactly when it was still unread. */
  lemma AcceptClearsUnread(db: Db, caller: Result<Member, string>, rid: string, now: Timestamp)
    requires Consistent(db.notificationTables)
    requires NS.AcceptStatusChangeRequestAs(db, caller, rid, now).Ok?
    ensures var nt := db.notificationTables;
            var n := nt.notifications[nt.requests[rid].notificationId];
            var nt2 := NS.AcceptStatusChangeRequestAs(db, caller, rid, now).value.0.notificationTables;
            NR.GetUnreadNotificationCount(nt2, caller.value.idMember) ==
              NR.GetUnreadNotificationCount(nt, caller.value.idMember) - (if n.readAt.None? then 1 else 0)
  {
    ResolveCount(db.notificationTables, rid, StatusAccepted, true, now, caller.value.idMember);
  }

  lemma RejectClearsUnread(db: Db, caller: Result<Member, string>, rid: string, now: Timestamp)
    requires Consistent(db.notificationTables)
    requires NS.RejectStatusChangeRequestAs(db, caller, rid, now).Ok?
    ensures var nt := db.notificationTables;
            var n := nt.notifications[nt.requests[rid].notificationId];
            var nt2 := NS.RejectStatusChangeRequestAs(db, caller, rid, now).value.0.notificationTables;
            NR.GetUnreadNotificationCount(nt2, caller.value.idMember) ==
              NR.GetUnreadNotificationCount(nt, caller.value.idMember) - (if n.readAt.None? then 1 else 0)
  {
    ResolveCount(db.notificationTables, rid, StatusRejected, false, now, caller.value.idMember);
  }

  /** Number of responses without `read_at`. */
  function UnreadResponses(rs: seq<NS.NotificationResponse>): (n: nat)
    ensures n <= |rs|
  {
    if rs == [] then 0 else (if rs[0].readAt.None? then 1 else 0) + UnreadResponses(rs[1..])
  }

  lemma {:induction false} UnreadResponsesOfListing(ns: seq<NotificationWithMember>)
    ensures UnreadResponses(NS.ToNotificationResponses(ns)) == NR.CountUnread(ns)
  {
    if ns != [] {
      assert NS.ToNotificationResponses(ns)[1..] == NS.ToNotificationResponses(ns[1..]);
      UnreadResponsesOfListing(ns[1..]);
    }
  }

  /** The badge agrees with the list: the unread count is the number of
      listed notifications that have no `read_at`. */
  lemma BadgeMatchesList(db: Db, caller: Result<Member, string>)
    requires NS.GetNotificationsAs(db, caller).Ok?
    ensures NS.GetUnreadNotificationCountAs(db, caller).Ok?
    ensures UnreadResponses(NS.GetNotificationsAs(db, caller).value)
              == NS.GetUnreadNotificationCountAs(db, caller).value.unreadCount
  {
    var listing := NR.GetNotificationsByMemberId(db.notificationTables, db.memberTables.members, caller.value.idMember);
    UnreadResponsesOfListing(listing.value);
    NR.UnreadCountMatchesListing(db.notificationTables, db.memberTables.members, caller.value.idMember);
  }
  // ---------------------------------------------------------------------
  // The whole round

  /** A board member asks a board member to change role; the target
      accepts. The target then holds the new role and reads back, and the
      target's unread count is what it was before the request. */
  lemma CreateThenAccept(db: Db, requester: Result<Member, string>, input: NS.StatusChangeInput,
                         nid: string, rid: string, now: Timestamp, target: Member, later: Timestamp)
    requires NS.CreateStatusChangeRequestAs(db, requester, input, nid, rid, now).Ok?
    requires target.idMember == input.targetMemberId && MR.Stored(db.memberTables, target)
    ensures var db2 := NS.CreateStatusChangeRequestAs(db, requester, input, nid, rid, now).value.0;
            var r := NS.AcceptStatusChangeRequestAs(db2, Ok(target), rid, later);
            && r.Ok? && r.value.1.newRole == input.toRole
            && MR.GetMemberById(r.value.0.memberTables, target.idMember).Ok?
            && MR.GetMemberById(r.value.0.memberTables, target.idMember).value.row
                 == db.memberTables.members[target.idMember].(role := input.toRole)
            && NR.GetUnreadNotificationCount(r.value.0.notificationTables, target.idMember)
                 == NR.GetUnreadNotificationCount(db.notificationTables, target.idMember)
  {
    var db2 := NS.CreateStatusChangeRequestAs(db, requester, input, nid, rid, now).value.0;
    var db3 := NS.AcceptStatusChangeRequestAs(db2, Ok(target), rid, later).value.0;
    CreateRaisesUnread(db, requester, input, nid, rid, now, target.idMember);
    assert db2.notificationTables.requests[rid].notificationId == nid;
    assert nid in NR.UnreadIds(db2.notificationTables, target.idMember);
    ResolveCount(db2.notificationTables, rid, StatusAccepted, true, later, target.idMember);
    var s := db.memberTables.members[target.idMember];
    var w := db3.memberTables.members[target.idMember];
    assert MR.SameUpdatedColumns(w, NS.WithRole(target, input.toRole));
    assert w == s.(role := input.toRole);
  }
}
